=== FILE: README.md ===
# wrangler core, modelled in Dafny

This project models the core of `wrangler`, the command-line tool for
Cloudflare Workers. It covers five parts:

- the publish pipeline;
- the manifest validation that runs before publishing;
- the default-project-name sequencer;
- the resolution of the global user from the config file and the environment;
- the argument parser and asset selection of the JavaScript bundler shim.

External effects are inputs to the model rather than actions it takes. These
are the build, the HTTP exchanges, the subdomain lookup, route registration,
installing and running the template generator, reading the webpack
configuration from disk, and writing files. Each operation is a pure function
from those inputs to what the command attempts and how it ends.

Files:

- `wrappers.dfy`: `Option` and `Result`.
- `strings.dfy`: first-occurrence search (`indexOf`, `contains`), one-character
  `split` and `join`, and JavaScript's first-occurrence `replace`.
- `decimal.dfy`: Rust's `str::parse::<i32>` and the decimal rendering of
  integers.
- `project_name.dfy`: `generate_project_name`. The two copies of it in the
  repository have the same behaviour, so there is one model.
- `global_user.dfy`: `TryFrom<Config> for GlobalUser`, the file-then-environment
  overlay, and `get_global_config`.
- `scaffold.dfy`: the generator tool and its argument list.
- `generate.dfy`: `generate` and `write_project_name` as in
  `src/commands/generate/mod.rs`.
- `generate_project.dfy`: `generate`, `project_type` and `write_project_name`
  as in `src/commands/generate.rs`.
- `validate.dfy`: `validate_project`.
- `publish.dfy`: `publish`, `publish_script`, `make_public_on_subdomain`, the
  endpoint URLs and `build_subdomain_request`. `Pipeline` is everything
  `publish` does after `validate_project`, taking the validation outcome as a
  parameter. `PublishCommand` feeds it the result of `ValidateProject`, so
  the pipeline properties hold for every validation outcome. The file also
  holds `Plan` and `Reached`, a reference description of the stages a run
  attempts, proved equal to what the pipeline does.
- `wranglerjs.dfy`: the argv reduce, the webpack configuration choice,
  `filterByExtension`, and the wasm and js asset selection.

Notes on the code's behaviour:

- Global user: the code requires `email` and `api_key` to be present but
  accepts empty values. It has no API-token variant, so there is no rule for
  a token taking precedence.
- Config round trip: a record written and read back is the same record only
  when its `next_default_project` is non-empty. An empty name comes back as
  `worker` (`GlobalSettings.WriteThenRead`).
- Missing config file: the code merges the config file through `?`. Whether a
  missing file is an error is decided by the configuration library, so the
  file layer is an input that may carry an error, and that error is passed
  through.

## Model

| member | source | states |
|---|---|---|
| Strings.IndexOf | wranglerjs/index.js:11 | `indexOf` finds the first occurrence. It reports none exactly when the pattern occurs nowhere |
| Strings.Split | src/commands/generate.rs:35 | `split` on one character yields at least one piece and no piece holds the separator. Joining the pieces with it gives back the input |
| Strings.SplitSnoc | src/commands/generate.rs:35-37 | a separator-free text after a last separator is the last piece, and the pieces before it are those of the prefix |
| Strings.SplitCons | wranglerjs/index.js:15 | a separator-free text before the first separator is the first piece |
| Strings.JoinSnoc | src/commands/generate.rs:49-51 | pushing one more segment and joining appends the separator and the segment |
| Strings.Join | src/commands/generate.rs:51 | `join` with one separator; `Split` proves it undoes splitting and `JoinSnoc` how a pushed segment is joined |
| Strings.ReplaceFirstPrefix | wranglerjs/index.js:16 | replacing the first occurrence of a leading pattern by nothing removes exactly that prefix |
| Strings.ReplaceFirst | wranglerjs/index.js:16 | `replace` with a string pattern touches only the first occurrence; `ReplaceFirstPrefix` states the leading case |
| Decimal.ParseI32 | src/commands/generate.rs:39-47 | only a run of digits, optionally after one `+` or `-`, parses, and it parses to that run's value with the sign applied, inside the `i32` range; every in-range run of digits parses to its value |
| Decimal.ParseWithoutMinusIsNonNegative | src/commands/generate.rs:39 | a segment without `-` never parses to a negative number |
| Decimal.NatToString | src/commands/generate.rs:50 | the rendering is a non-empty run of digits with no sign, whose value is the number. It has no leading zero unless the number is zero |
| Decimal.IntToString | src/commands/generate.rs:50 | `to_string` on an integer: a minus sign for negatives, then the digits; `ParseIntToString` proves it parses back |
| Decimal.ParseIntToString | src/commands/generate.rs:49-50 | every `i32` rendered by `to_string` parses back to itself |
| Decimal.LongNumeralOutOfRange | src/commands/generate.rs:39 | eleven or more digits without a leading zero never parse as `i32` |
| ProjectName.NonNumericTail | src/commands/generate/mod.rs:56-70 | when the last `-` segment is not an `i32`, the next name is the old one plus `-1` |
| ProjectName.WordTail | src/commands/generate/mod.rs:58-70 | a last `-` segment with a non-digit anywhere except a leading sign is a word: the name can grow, and the next name is the old one plus `-1` |
| ProjectName.NumericTail | src/commands/generate/mod.rs:56-70 | when the last segment is the `i32` n, it is replaced by the rendering of n+1 and everything before it is kept |
| ProjectName.SingleNumericSegment | src/commands/generate.rs:35-51 | a name that is one numeric segment becomes that number plus one, with no dash |
| ProjectName.TailDecomposition | src/commands/generate.rs:35-37 | the last segment is the whole name when there is no dash, and otherwise the text after the last dash |
| ProjectName.NextHasNumericTail | src/commands/generate.rs:33-52 | every proposed name ends in a segment that parses as a positive `i32`, so the next proposal increments |
| ProjectName.OneParses | src/commands/generate.rs:44-50 | the appended segment `1` is the rendering of one and parses back to one |
| ProjectName.CountsUp | src/commands/generate/mod.rs:54-71 | from a name with a non-numeric tail, the k-th successive proposal is the name followed by `-k` |
| ProjectName.FirstProposal | src/commands/generate/mod.rs:60-70 | the first proposal after a name with a non-numeric tail is the name followed by `-1` |
| ProjectName.NextProposal | src/commands/generate/mod.rs:58-70 | once the n-th proposal is `<name>-n`, the next is `<name>-(n+1)` |
| ProjectName.NextProjectName | src/commands/generate/mod.rs:54-71 | defined for every name whose numeric tail is below `i32::MAX`; what it returns is stated by `NonNumericTail`, `NumericTail`, `SingleNumericSegment` and `NextHasNumericTail` |
| ProjectName.MultiDigitCarry | src/commands/generate/mod.rs:60-70 | a final `9` becomes `10` |
| ProjectName.LoneNumber | src/commands/generate/mod.rs:58-70 | `5` becomes `6`: the only segment is popped and no dash appears |
| ProjectName.EmptyTail | src/commands/generate.rs:35-47 | a trailing dash leaves an empty segment that does not parse, so `worker-` becomes `worker--1` |
| ProjectName.LeadingZerosDropped | src/commands/generate.rs:39-50 | `x-007` becomes `x-8`, so zero padding is not kept |
| ProjectName.PlusSignAccepted | src/commands/generate.rs:39-43 | the `i32` parser accepts a leading `+`, so `x-+5` becomes `x-6` |
| ProjectName.OutOfRangeTail | src/commands/generate.rs:39-47 | a last segment of eleven or more digits without a leading zero is too large for `i32` and is treated as a word, so `-1` is appended |
| GlobalSettings.Overlay | src/settings/global_user.rs:58-61 | the environment layer's value wins for every key it defines. Other keys keep the file's value, and the merged keys are the union |
| GlobalSettings.FromConfig | src/settings/global_user.rs:20-47 | success exactly when `email` and `api_key` are present. `email` is checked first. Values are copied as they are. A missing or empty `next_default_project` becomes `worker` |
| GlobalSettings.GetGlobalConfig | src/settings/global_user.rs:49-76 | an error merging the file is passed on as it is. Otherwise success exactly when the overlay holds both keys, and then the user holds the overlay's `email` and `api_key` and its next project name with the `worker` default. A resolution failure names the first missing key, `email` before `api_key` |
| GlobalSettings.EnvironmentWins | src/settings/global_user.rs:58-63 | credentials set in the environment override those in the file |
| GlobalSettings.FileAloneSuffices | src/settings/global_user.rs:58-66 | with an empty environment the file alone decides the outcome |
| GlobalSettings.HintMessage | src/settings/global_user.rs:67-73 | the error message tells the user to run `wrangler config` and ends with the configuration error's text |
| GlobalSettings.ErrorText | src/settings/global_user.rs:58-74 | a source error is reported as the source worded it, and a resolution error inside the `wrangler config` hint |
| GlobalSettings.WriteThenRead | src/settings/global_user.rs:20-47 | a stored user reads back unchanged exactly when its project name is non-empty. An empty one reads back as `worker` |
| GlobalSettings.ToConfig | src/settings/global_user.rs:7-12 | the stored form of a user, under the keys `email`, `api_key` and `next_default_project`; `WriteThenRead` proves it reads back |
| GlobalSettings.InitialUser | src/commands/config.rs:8-15 | the first record written holds the given credentials and `worker`, and reads back unchanged |
| Scaffold.GeneratorArgs | src/commands/generate/mod.rs:37 | the generator runs as `generate --git <template> --name <name> --force` |
| Generate.ConfigPath | src/commands/generate/mod.rs:20 | `PathBuf::from("./").join(name)`: the name under `./`, or the name itself when it is an absolute path, which replaces the base; it is what the manifest step receives in `GenerateCommand`'s contract |
| Generate.GeneratedSite | src/commands/generate/mod.rs:23-27 | a site at `./public` exactly when the site flag is set; it is what the manifest step receives in `GenerateCommand`'s contract |
| Generate.GenerateCommand | src/commands/generate/mod.rs:9-43 | the name is checked first and step k is always of the k-th kind. A bad name stops everything, a failed install stops before the generator, and a failed generator stops before the manifest. Once the earlier steps succeed the tool is installed, the generator runs with the exact argument list and the manifest is written with the given name, type, path (`ConfigPath`) and site (`GeneratedSite`). The outcome is the first failing step's error, or the manifest writer's outcome |
| Generate.WriteProjectName | src/commands/generate/mod.rs:45-52 | the record written differs from the input only in its next project name, which is the sequencer's proposal |
| Generate.WrittenNameIsNumbered | src/commands/generate/mod.rs:45-71 | after one write, the recorded name ends in a positive number |
| GenerateProject.InferProjectType | src/commands/generate.rs:77-82 | a template whose text contains `rust` is a Rust project, and any other template gets the default type |
| GenerateProject.RustTemplate | src/commands/generate.rs:77-80 | `rust` anywhere in the template selects Rust |
| GenerateProject.ChosenProjectType | src/commands/generate.rs:15 | an explicitly given type wins over inference |
| GenerateProject.GenerateCommand | src/commands/generate.rs:9-22 | install, then run the generator with the exact arguments, then write the project with the chosen type and the flag `false`; step k is always of the k-th kind. The project type recorded with the generator step is the one its progress message names, since the subprocess receives only the arguments. A failed install stops before the generator, and a failed generator stops before the write. Once the earlier steps succeed the later one is attempted, and the outcome is the first failing step's error, or the project writer's outcome |
| GenerateProject.WriteProjectName | src/commands/generate.rs:24-31 | only the next project name changes in the record written |
| GenerateProject.WrittenUserReadsBack | src/commands/generate.rs:24-31 | the record written reads back unchanged, because its new name is never empty |
| Validate.IdentityMissing | src/commands/publish/mod.rs:122-127 | `account_id` and `name` are reported exactly when empty, each at most once, in that order. The list is as long as the number of empty fields |
| Validate.KvMissing | src/commands/publish/mod.rs:129-142 | the namespace part reports only binding and id fields, at most two per entry |
| Validate.KvMissingSingle | src/commands/publish/mod.rs:131-139 | one entry reports its binding and then its id, each exactly when empty |
| Validate.KvMissingAppend | src/commands/publish/mod.rs:129-142 | the report for consecutive entries is their reports in sequence, so the namespace part goes entry by entry |
| Validate.KvMissingCounts | src/commands/publish/mod.rs:129-142 | each empty binding and each empty id is reported once per entry, with no deduplication |
| Validate.ReleaseMissing | src/commands/publish/mod.rs:144-156 | a release reports `zone_id` and `route` exactly when they are absent or empty, each at most once, in that order. A preview reports neither |
| Validate.MissingFields | src/commands/publish/mod.rs:119-162 | each identity or release field is in the list exactly when it is empty, or required and blank |
| Validate.MissingFieldsOnce | src/commands/publish/mod.rs:119-162 | `account_id`, `name`, `zone_id` and `route` each occur exactly once when missing and not at all otherwise |
| Validate.MissingFieldsLayout | src/commands/publish/mod.rs:119-162 | the list is the identity fields, then the namespace report for the entries in order, then the release fields |
| Validate.MissingFieldsOrdered | src/commands/publish/mod.rs:119-162 | fields come in the order account id, name, namespace fields, zone id, route |
| Validate.MissingFieldsCounts | src/commands/publish/mod.rs:129-142 | the full report holds one binding and one id entry per empty namespace field |
| Validate.Wording | src/commands/publish/mod.rs:164-168 | `field`/`is` for one missing field and `fields`/`are` for two or more; `ValidateProject`'s contract states the wording that results for every failure |
| Validate.Destination | src/commands/publish/mod.rs:144-162 | `a route` for a release and `your subdomain` otherwise; `ValidateProject`'s contract states which one every failure names |
| Validate.ValidateProject | src/commands/publish/mod.rs:119-181 | success exactly when nothing is missing. A failure lists the missing fields, says `field ... is` for one and `fields ... are` for several, and names `a route` exactly for a release |
| Validate.OnlyAccountIdMissing | src/commands/publish/mod.rs:119-181 | an empty account id with a name, in a preview, fails for the account id alone, in the singular |
| Validate.SingleFieldRendering | src/commands/publish/mod.rs:171-177 | a lone field appears in the message quoted in brackets |
| Validate.Message | src/commands/publish/mod.rs:170-177 | the error text holds the noun, the missing fields in the debug list form and the verb, in that order, and ends with the destination and `!` |
| Validate.FourFieldsMissing | src/commands/publish/mod.rs:119-181 | a release with empty account id, name, zone id and route reports exactly those four, in order, in the plural |
| Publish.SubdomainUrlExtendsUploadUrl | src/commands/publish/mod.rs:89-92 | the subdomain endpoint is the script's upload endpoint followed by `/subdomain` |
| Publish.UploadUrl | src/commands/publish/mod.rs:46-49 | the script endpoint under the account; `RequestsAreWellFormed` shows the upload goes there |
| Publish.SubdomainUrl | src/commands/publish/mod.rs:89-92 | the upload endpoint followed by `/subdomain` (`SubdomainUrlExtendsUploadUrl`) |
| Publish.PublicUrl | src/commands/publish/mod.rs:104-107 | the reported address contains `.<subdomain>.workers.dev` |
| Publish.MakePublicOnSubdomain | src/commands/publish/mod.rs:85-117 | the subdomain is looked up first, and a failed lookup stops there. Success needs the lookup and a 2xx answer, and then the public address is reported. A failed lookup fails with that lookup's error, and an enable request not answered 2xx fails with that exchange's error |
| Publish.ExposesOnSubdomain | src/commands/publish/mod.rs:70-72 | a preview of a worker not marked private, with a missing `private` read as false; `SubdomainExactlyWhenPreview` states that the subdomain is touched exactly then |
| Publish.PublishScript | src/commands/publish/mod.rs:41-79 | upload, then the subdomain for a public preview; `StagesFollowPlan`, `FailedUploadStopsProvisioning` and `SubdomainExactlyWhenPreview` state what it attempts |
| Publish.PublishRouteStages | src/commands/publish/mod.rs:26-29 | route creation, then route publishing; `RouteExactlyWhenRelease` and `SucceedsExactly` state when it runs and how it ends |
| Publish.PublishCommand | src/commands/publish/mod.rs:20-39 | `publish` on a manifest: the pipeline fed the outcome of `validate_project` (`PublishChecksManifestFirst`) |
| Publish.Pipeline | src/commands/publish/mod.rs:20-39 | everything after the manifest check, for any check outcome; `StagesFollowPlan`, `StagesInOrder`, `NeverBoth` and `SucceedsExactly` are stated about it |
| Publish.PublishChecksManifestFirst | src/commands/publish/mod.rs:20-23 | a manifest with a missing field stops `publish` at the check, with an error listing exactly those fields. A complete manifest runs the rest of the pipeline |
| Publish.StagesFollowPlan | src/commands/publish/mod.rs:20-39 | the stages a run attempts are exactly a prefix of the planned stages for its mode, cut at the first failure |
| Publish.PlanRanks | src/commands/publish/mod.rs:20-39 | planned stages follow the fixed order validate, build, upload, then provisioning |
| Publish.ReachedProvisioning | src/commands/publish/mod.rs:60-76 | a run gets past the upload exactly when the upload is answered 2xx and the mode has something to provision |
| Publish.PlanTouchesSubdomain | src/commands/publish/mod.rs:70-76 | the planned stages include the subdomain only past the upload and only for a public preview |
| Publish.PlanTouchesRoute | src/commands/publish/mod.rs:26-29 | the planned stages include the route only past the upload and only for a release |
| Publish.InvalidManifestStopsEverything | src/commands/publish/mod.rs:23 | an invalid manifest stops the command before the build, with the validation error |
| Publish.FailedBuildStopsUpload | src/commands/publish/mod.rs:24 | a failed build stops the command before any upload |
| Publish.StagesInOrder | src/commands/publish/mod.rs:20-39 | every run starts with validation and attempts its stages in the fixed order |
| Publish.UploadNeedsValidBuild | src/commands/publish/mod.rs:23-58 | nothing is uploaded unless the manifest is valid, the build worked and the upload form was built |
| Publish.FailedUploadStopsProvisioning | src/commands/publish/mod.rs:60-68 | an upload not answered 2xx ends the command in failure with that upload's error, with no subdomain or route stage |
| Publish.ErrorsPastTheBuild | src/commands/publish/mod.rs:20-117 | once the build and the upload form succeed, each later failure is reported as its own error: an unsent request with its reason, a rejected upload or enable with its status and body, a failed subdomain lookup with its error, and a failed route lookup or route publish with the route error |
| Publish.SubdomainExactlyWhenPreview | src/commands/publish/mod.rs:70-76 | the subdomain is touched exactly for a preview of a non-private worker whose upload succeeded |
| Publish.RouteExactlyWhenRelease | src/commands/publish/mod.rs:26-29 | the route is touched exactly for a release whose upload succeeded |
| Publish.NeverBoth | src/commands/publish/mod.rs:26-76 | no run provisions both a subdomain and a route |
| Publish.RequestsAreWellFormed | src/commands/publish/mod.rs:46-101 | the upload goes to the script's endpoint. Enablement posts `{"enabled":true}` to the subdomain endpoint, and the lookup uses the manifest's account |
| Publish.PreviewReportsPublicUrl | src/commands/publish/mod.rs:103-108 | a public preview that goes through reports `https://<name>.<subdomain>.workers.dev` |
| Publish.SucceedsExactly | src/commands/publish/mod.rs:20-39 | the command succeeds exactly when every stage its mode needs succeeds |
| WranglerJs.ParseArgs | wranglerjs/index.js:9-19 | parsing fails exactly when some argument has neither `--` nor `=`, and the error is `malformed arguments` |
| WranglerJs.KeyOf | wranglerjs/index.js:15-16 | the text before the first `=` with its first `--` removed; `KeyValue` and `OnlyFirstDashesRemoved` state it on examples of every shape |
| WranglerJs.ValueOf | wranglerjs/index.js:15 | the value is `undefined` exactly when the argument has no `=`, and a present value holds no `=` |
| WranglerJs.KeysSet | wranglerjs/index.js:15-17 | the set holds every key an argument sets, and nothing else |
| WranglerJs.ParsedKeys | wranglerjs/index.js:10-19 | the parsed object's keys are exactly the keys the arguments set |
| WranglerJs.LastOccurrenceWins | wranglerjs/index.js:10-19 | a key set several times takes the value of the last argument that sets it |
| WranglerJs.MalformedAnywhere | wranglerjs/index.js:11-13 | one malformed argument anywhere on the command line makes the parse throw |
| WranglerJs.FlagWithoutValue | wranglerjs/index.js:11-17 | `--name` with no `=` is accepted and sets `name` to `undefined` |
| WranglerJs.KeyValue | wranglerjs/index.js:15-16 | `key=value` sets the key, stripped of its first `--`, to the value |
| WranglerJs.SecondEqualsTruncates | wranglerjs/index.js:15 | text after a second `=` is dropped |
| WranglerJs.OnlyFirstDashesRemoved | wranglerjs/index.js:16 | only the first `--` is removed, so `----name` sets `--name` |
| WranglerJs.SelectConfig | wranglerjs/index.js:21-26 | the configuration is generated exactly when `no-webpack-config` is `1`. It holds only the `use-entry` value, and otherwise the project's file is used |
| WranglerJs.EntryFromCommandLine | wranglerjs/index.js:9-26 | `--no-webpack-config=1 --use-entry=<e>` compiles `<e>` with a generated configuration |
| WranglerJs.BareFlagKeepsProjectConfig | wranglerjs/index.js:15-26 | a bare `--no-webpack-config` is `undefined`, not `1`, so the project's configuration is kept |
| WranglerJs.FilterByExtensionIff | wranglerjs/index.js:32-34 | a name passes the filter exactly when `.ext` occurs at some position in it |
| WranglerJs.JsFilterMatchesInside | wranglerjs/index.js:32-34 | `.js` anywhere in a name passes the `js` filter, for example in a source map name |
| WranglerJs.JsonPassesJsFilter | wranglerjs/index.js:32-34 | `a.json` passes the `js` filter |
| WranglerJs.FindByExtension | wranglerjs/index.js:89 | the result is the first passing name, and there is none exactly when no name passes |
| WranglerJs.FilterKeys | wranglerjs/index.js:90 | the kept names are exactly the names that pass |
| WranglerJs.FilterKeysAppend | wranglerjs/index.js:90 | filtering distributes over concatenation, so kept names keep the key order |
| WranglerJs.FilterKeysIdempotent | wranglerjs/index.js:90 | filtering the kept names again changes nothing |
| WranglerJs.FindIsFirstOfFilter | wranglerjs/index.js:89-90 | the found name is the first of the filtered names, and none is found exactly when the filter keeps nothing |
| WranglerJs.SelectAssets | wranglerjs/index.js:89-91 | the wasm module is the first name passing the `wasm` filter, and one is found exactly when some name passes. The js assets are the names passing the `js` filter, in key order |

## Left out

- ProjectName.NextProjectName: does not model `val + 1` overflowing at `i32::MAX`. It requires the last segment not to be `2147483647`, because the source panics or wraps there depending on the build profile.
- GenerateProject.GenerateCommand: the boolean `Project::generate` receives is carried as the constant `false`. Its meaning is defined in `src/settings/project.rs`, which is not part of this model.
- GenerateProject.InferProjectType: `ProjectType::default()` is defined in `src/settings/project.rs`, which is not part of this model. The model takes `Webpack` as the default.
- Generate.GenerateCommand: `TargetType` and `Manifest::generate` live in `src/settings/target`, which is not part of this model. The target type is passed through untouched as a type parameter, and writing the manifest is an input outcome.
- `validate_worker_name` is not part of this model. Its result is an input.
- HTTP: the authenticated client, headers, multipart form contents, `Subdomain::get`, `Route::new` and `Route::publish` are not part of this model. Each result is an input.
- Publish rejections: the status text and body of a rejected request are carried as data. The exact `Something went wrong!` wording is not modelled.
- `commands::build`, `install::install` and running the generator (including the Windows `cmd /C` wrapper) are subprocesses. Their outcomes are inputs.
- File I/O: locating the home directory, writing the config file and its permissions (`src/commands/config.rs` beyond the initial record) are left out.
- Config library: the wording of its errors is an input to `GlobalSettings.HintMessage`. Its handling of a missing file and of the `CF_` prefix mapping is not modelled; the environment layer is given already stripped of its prefix.
- Credentials: an API-token variant and any token-versus-key precedence are not implemented by `src/settings/global_user.rs`, so neither is modelled.
- The emoji and terminal styling in messages and log lines are left out.
- `wranglerjs/loader.js` is a Babel AST traversal over a library outside this model.
- The webpack compile, memory file system, reading and writing of asset files, and bundle assembly in `wranglerjs/index.js` are external effects and are left out.
- WranglerJs.ParseArgs: keys with special meaning on a JavaScript object (`__proto__`) are treated as ordinary keys.
- WranglerJs.SelectAssets: `Object.keys` order is taken as given. The rule that integer-like keys come first is not modelled.

=== FILE: decimal.dfy ===
/** Decimal numerals as Rust reads and writes them for `i32`:
    `str::parse::<i32>` and the `Display` rendering used by `to_string`. */
module Decimal {
  import opened Wrappers

  const I32Min: int := -0x8000_0000
  const I32Max: int := 0x7fff_ffff

  predicate IsDigit(ch: char) {
    '0' <= ch <= '9'
  }

  predicate AllDigits(s: string) {
    forall k :: 0 <= k < |s| ==> IsDigit(s[k])
  }

  function DigitValue(ch: char): nat
    requires IsDigit(ch)
  {
    (ch as int) - ('0' as int)
  }

  function DigitChar(d: nat): (ch: char)
    requires d < 10
    ensures IsDigit(ch) && DigitValue(ch) == d
  {
    (('0' as int) + d) as char
  }

  /** The value of a string of decimal digits, most significant first;
      leading zeros contribute nothing. */
  function DigitsValue(s: string): nat
    requires AllDigits(s)
  {
    if |s| == 0 then 0
    else DigitsValue(s[..|s| - 1]) * 10 + DigitValue(s[|s| - 1])
  }

  /** Rust's `s.parse::<i32>()`: an optional single `+` or `-`, then at least
      one ASCII digit and nothing else, with a value inside the `i32` range.
      Everything else (the empty string, a lone sign, any other character, a
      value out of range) is an error, here `None`. */
  function ParseI32(s: string): (r: Option<int>)
    ensures r.Some? ==> I32Min <= r.value <= I32Max
    ensures r.Some? ==> |s| >= 1
    ensures r.Some? ==>
              (AllDigits(s) && r.value == DigitsValue(s)) ||
              (s[0] == '+' && |s| >= 2 && AllDigits(s[1..]) && r.value == DigitsValue(s[1..])) ||
              (s[0] == '-' && |s| >= 2 && AllDigits(s[1..]) && r.value == 0 - (DigitsValue(s[1..]) as int))
    ensures |s| >= 1 && AllDigits(s) && DigitsValue(s) <= I32Max ==> r == Some(DigitsValue(s) as int)
  {
    if |s| == 0 then None
    else
      var negative := s[0] == '-';
      var digits := if s[0] == '-' || s[0] == '+' then s[1..] else s;
      if |digits| == 0 || !AllDigits(digits) then None
      else
        var magnitude: int := DigitsValue(digits);
        var v := if negative then -magnitude else magnitude;
        if I32Min <= v <= I32Max then Some(v) else None
  }

  /** A string without a minus sign never parses to a negative number. */
  lemma ParseWithoutMinusIsNonNegative(s: string)
    requires '-' !in s
    requires ParseI32(s).Some?
    ensures ParseI32(s).value >= 0
  {
    assert s[0] != '-';
  }

  /** Canonical decimal rendering of a natural number: no sign, no leading
      zeros, and reading it back gives the number. */
  function NatToString(n: nat): (r: string)
    ensures |r| >= 1 && AllDigits(r)
    ensures DigitsValue(r) == n
    ensures r[0] == '0' ==> n == 0
    ensures '-' !in r && '+' !in r
    decreases n
  {
    if n < 10 then [DigitChar(n)]
    else
      var prefix := NatToString(n / 10);
      var r := prefix + [DigitChar(n % 10)];
      assert r[..|r| - 1] == prefix;
      r
  }

  /** Rust's `Display` for a signed integer: a `-` for negatives, then the
      canonical digits. */
  function IntToString(i: int): string {
    if i < 0 then "-" + NatToString(-i) else NatToString(i)
  }

  /** Rendering then parsing gives back every `i32` value. */
  lemma ParseIntToString(i: int)
    requires I32Min <= i <= I32Max
    ensures ParseI32(IntToString(i)) == Some(i)
  {
    var s := IntToString(i);
    if i < 0 {
      assert s[1..] == NatToString(-i);
    } else {
      assert s[0] != '-';
      assert s[0] != '+';
    }
  }

  function Pow10(n: nat): nat {
    if n == 0 then 1 else 10 * Pow10(n - 1)
  }

  /** A numeral whose first digit is not zero is worth at least ten to the
      power of its length minus one. */
  lemma {:induction false} DigitsLowerBound(s: string)
    requires AllDigits(s) && |s| >= 1 && s[0] != '0'
    ensures DigitsValue(s) >= Pow10(|s| - 1)
    decreases |s|
  {
    if |s| > 1 {
      var prefix := s[..|s| - 1];
      assert prefix[0] == s[0];
      DigitsLowerBound(prefix);
    }
  }

  /** Eleven or more significant digits never fit in an `i32`. */
  lemma LongNumeralOutOfRange(s: string)
    requires AllDigits(s) && |s| >= 11 && s[0] != '0'
    ensures ParseI32(s).None?
  {
    DigitsLowerBound(s);
    PowMonotone(10, |s| - 1);
    assert Pow10(10) == 10000000000;
  }

  lemma {:induction false} PowMonotone(m: nat, n: nat)
    requires m <= n
    ensures Pow10(m) <= Pow10(n)
    decreases n
  {
    if m < n {
      PowMonotone(m, n - 1);
    }
  }
}

=== FILE: generate.dfy ===
/** `wrangler generate` as written in src/commands/generate/mod.rs: check the
    worker name, run the template generator, then write the manifest; and
    `write_project_name`, which records the next default project name in the
    global configuration. Everything these steps do outside the process
    (installing the tool, running it, writing files) is an input outcome. */
module Generate {
  import opened Wrappers
  import opened Scaffold
  import opened ProjectName
  import Decimal

  /** The steps `generate` attempts, in the order it attempts them. The
      target type is passed through untouched, so it is a type parameter. */
  datatype Step<T> =
    | ValidateName(name: string)
    | InstallTool(tool: string, owner: string)
    | RunGenerator(args: seq<string>)
    | WriteManifest(name: string, targetType: Option<T>, configPath: string, site: Option<string>)

  datatype Run<T> = Run(steps: seq<Step<T>>, outcome: Result<(), string>)

  /** Position of a step kind in the command's fixed order. */
  function Rank<T>(s: Step<T>): nat {
    match s
    case ValidateName(_) => 0
    case InstallTool(_, _) => 1
    case RunGenerator(_) => 2
    case WriteManifest(_, _, _, _) => 3
  }

  /** Every step comes strictly after the ones before it in the fixed order. */
  predicate InOrder<T>(steps: seq<Step<T>>) {
    forall i, j :: 0 <= i < j < |steps| ==> Rank(steps[i]) < Rank(steps[j])
  }

  /** `PathBuf::from("./").join(name)`: joining an absolute path replaces
      the base. */
  function ConfigPath(name: string): string {
    if |name| > 0 && name[0] == '/' then name else "./" + name
  }

  /** The site the manifest is generated with. */
  function GeneratedSite(site: bool): Option<string> {
    if site then Some("./public") else None
  }

  /** `generate` (with `run_generate` inlined): each step runs only when the
      one before it succeeded, and the first failure is the command's error. */
  function GenerateCommand<T>(name: string, template: string, targetType: Option<T>, site: bool,
                              nameCheck: Result<(), string>, install: Result<(), string>,
                              generator: Result<(), string>, manifest: Result<(), string>): (r: Run<T>)
    ensures |r.steps| >= 1 && r.steps[0] == ValidateName(name)
    ensures forall i :: 0 <= i < |r.steps| ==> Rank(r.steps[i]) == i
    ensures InOrder(r.steps)
    ensures nameCheck.Failure? ==> r.steps == [ValidateName(name)] && r.outcome == Failure(nameCheck.error)
    ensures nameCheck.Success? && install.Failure? ==> r.steps == [ValidateName(name), InstallTool(ToolName, ToolOwner)]
    ensures nameCheck.Success? && install.Success? && generator.Failure? ==>
              r.steps == [ValidateName(name), InstallTool(ToolName, ToolOwner), RunGenerator(GeneratorArgs(template, name))]
    ensures forall i :: 0 <= i < |r.steps| && r.steps[i].RunGenerator? ==>
              nameCheck.Success? && r.steps[i].args == GeneratorArgs(template, name)
    ensures forall i :: 0 <= i < |r.steps| && r.steps[i].WriteManifest? ==>
              generator.Success? &&
              r.steps[i] == WriteManifest(name, targetType, ConfigPath(name), GeneratedSite(site))
    ensures nameCheck.Success? ==> InstallTool(ToolName, ToolOwner) in r.steps
    ensures nameCheck.Success? && install.Success? ==> RunGenerator(GeneratorArgs(template, name)) in r.steps
    ensures nameCheck.Success? && install.Success? && generator.Success? ==>
              WriteManifest(name, targetType, ConfigPath(name), GeneratedSite(site)) in r.steps
    ensures nameCheck.Success? && install.Failure? ==> r.outcome == Failure(install.error)
    ensures nameCheck.Success? && install.Success? && generator.Failure? ==> r.outcome == Failure(generator.error)
    ensures nameCheck.Success? && install.Success? && generator.Success? ==> r.outcome == manifest
    ensures r.outcome.Success? <==>
              nameCheck.Success? && install.Success? && generator.Success? && manifest.Success?
  {
    var validateStep := ValidateName(name);
    var installStep := InstallTool(ToolName, ToolOwner);
    var runStep := RunGenerator(GeneratorArgs(template, name));
    var writeStep := WriteManifest(name, targetType, ConfigPath(name), GeneratedSite(site));
    if nameCheck.Failure? then Run([validateStep], Failure(nameCheck.error))
    else if install.Failure? then Run([validateStep, installStep], Failure(install.error))
    else if generator.Failure? then Run([validateStep, installStep, runStep], Failure(generator.error))
    else Run([validateStep, installStep, runStep, writeStep], manifest)
  }

  /** The global configuration: the user's credentials (passed through
      untouched, so a type parameter) and the next default project name. */
  datatype GlobalConfig<U> = GlobalConfig(globalUser: U, nextDefaultProject: string)

  /** `write_project_name`: the configuration handed to the writer is a copy
      in which only the next default project name has moved on. */
  function WriteProjectName<U>(config: GlobalConfig<U>): (written: GlobalConfig<U>)
    requires IncrementFits(config.nextDefaultProject)
    ensures written.globalUser == config.globalUser
    ensures written.nextDefaultProject == NextProjectName(config.nextDefaultProject)
  {
    config.(nextDefaultProject := NextProjectName(config.nextDefaultProject))
  }

  /** Recording the name twice in a row increments instead of appending
      again: once written, the name always ends in a positive number. */
  lemma WrittenNameIsNumbered<U>(config: GlobalConfig<U>)
    requires IncrementFits(config.nextDefaultProject)
    ensures Decimal.ParseI32(Tail(WriteProjectName(config).nextDefaultProject)).Some?
    ensures Decimal.ParseI32(Tail(WriteProjectName(config).nextDefaultProject)).value >= 1
  {
    NextHasNumericTail(config.nextDefaultProject);
  }
}

=== FILE: generate_project.dfy ===
/** `wrangler generate` as written in src/commands/generate.rs: choose the
    project type, run the template generator, then write the project; and
    `write_project_name` on the global user record. Installing and running
    the tool and writing files are input outcomes. */
module GenerateProject {
  import opened Wrappers
  import opened Strings
  import opened Scaffold
  import opened ProjectName
  import opened GlobalSettings
  import Decimal

  /** The project types. Which one `ProjectType::default()` returns is
      defined in src/settings/project.rs, which is not part of this model;
      the model takes `Webpack`. */
  datatype ProjectType = JavaScript | Rust | Webpack

  const DefaultProjectType: ProjectType := Webpack

  /** `project_type`: a template whose name mentions `rust` is a Rust
      project; anything else gets the default type. */
  function InferProjectType(template: string): (pt: ProjectType)
    ensures pt == Rust <==> Contains(template, "rust")
    ensures pt != Rust ==> pt == DefaultProjectType
  {
    if Contains(template, "rust") then Rust else DefaultProjectType
  }

  /** Any template whose name contains `rust`, wherever it sits, is inferred
      as a Rust project. */
  lemma RustTemplate(before: string, after: string)
    ensures InferProjectType(before + "rust" + after) == Rust
  {
    ContainsInfix(before, "rust", after);
  }

  /** `pt.unwrap_or_else(|| project_type(template))`: an explicit type wins
      over inference. */
  function ChosenProjectType(template: string, explicit: Option<ProjectType>): (pt: ProjectType)
    ensures explicit.Some? ==> pt == explicit.value
    ensures explicit.None? ==> pt == InferProjectType(template)
  {
    match explicit
    case Some(t) => t
    case None => InferProjectType(template)
  }

  /** The steps `generate` attempts, in the order it attempts them. The
      generator subprocess receives only `args`; the project type recorded
      with it is the one the progress message names. The boolean passed to
      `Project::generate` is carried as it is written; its meaning is
      defined in src/settings/project.rs, which is not part of this model. */
  datatype Step =
    | InstallTool(tool: string, owner: string)
    | RunGenerator(args: seq<string>, projectType: ProjectType)
    | WriteProject(name: string, projectType: ProjectType, flag: bool)

  datatype Run = Run(steps: seq<Step>, outcome: Result<(), string>)

  /** Position of a step kind in the command's fixed order. */
  function Rank(s: Step): nat {
    match s
    case InstallTool(_, _) => 0
    case RunGenerator(_, _) => 1
    case WriteProject(_, _, _) => 2
  }

  /** `generate`: install the tool, run it with the fixed arguments, then
      write the project with the chosen type and the flag `false`. Each
      step runs only when the one before it succeeded. */
  function GenerateCommand(name: string, template: string, explicit: Option<ProjectType>,
                           install: Result<(), string>, generator: Result<(), string>,
                           project: Result<(), string>): (r: Run)
    ensures |r.steps| >= 1 && r.steps[0] == InstallTool(ToolName, ToolOwner)
    ensures forall i :: 0 <= i < |r.steps| ==> Rank(r.steps[i]) == i
    ensures install.Failure? ==> r.steps == [InstallTool(ToolName, ToolOwner)]
    ensures install.Success? && generator.Failure? ==>
              r.steps == [InstallTool(ToolName, ToolOwner), RunGenerator(GeneratorArgs(template, name), ChosenProjectType(template, explicit))]
    ensures forall i :: 0 <= i < |r.steps| && r.steps[i].RunGenerator? ==>
              i == 1 && install.Success? &&
              r.steps[i].args == GeneratorArgs(template, name) &&
              r.steps[i].projectType == ChosenProjectType(template, explicit)
    ensures forall i :: 0 <= i < |r.steps| && r.steps[i].WriteProject? ==>
              i == 2 && generator.Success? &&
              r.steps[i] == WriteProject(name, ChosenProjectType(template, explicit), false)
    ensures generator.Failure? ==> forall i :: 0 <= i < |r.steps| ==> !r.steps[i].WriteProject?
    ensures install.Success? ==> RunGenerator(GeneratorArgs(template, name), ChosenProjectType(template, explicit)) in r.steps
    ensures install.Success? && generator.Success? ==>
              WriteProject(name, ChosenProjectType(template, explicit), false) in r.steps
    ensures install.Failure? ==> r.outcome == Failure(install.error)
    ensures install.Success? && generator.Failure? ==> r.outcome == Failure(generator.error)
    ensures install.Success? && generator.Success? ==> r.outcome == project
    ensures r.outcome.Success? <==> install.Success? && generator.Success? && project.Success?
  {
    var pt := ChosenProjectType(template, explicit);
    var installStep := InstallTool(ToolName, ToolOwner);
    var runStep := RunGenerator(GeneratorArgs(template, name), pt);
    if install.Failure? then Run([installStep], Failure(install.error))
    else if generator.Failure? then Run([installStep, runStep], Failure(generator.error))
    else Run([installStep, runStep, WriteProject(name, pt, false)], project)
  }

  /** `write_project_name`: the user record handed to the writer is a copy
      in which only the next default project name has moved on. */
  function WriteProjectName(user: GlobalUser): (written: GlobalUser)
    requires IncrementFits(user.nextDefaultProject)
    ensures written.email == user.email && written.apiKey == user.apiKey
    ensures written.nextDefaultProject == NextProjectName(user.nextDefaultProject)
  {
    user.(nextDefaultProject := NextProjectName(user.nextDefaultProject))
  }

  /** The record written by `write_project_name`, read back from the file
      with no environment overrides, is exactly that record: the new name is
      never empty, so the `worker` default does not kick in. */
  lemma WrittenUserReadsBack(user: GlobalUser)
    requires IncrementFits(user.nextDefaultProject)
    ensures GetGlobalConfig(Success(ToConfig(WriteProjectName(user))), map[]) == Success(WriteProjectName(user))
  {
    var written := WriteProjectName(user);
    NextHasNumericTail(user.nextDefaultProject);
    WriteThenRead(written);
  }
}

=== FILE: global_user.dfy ===
/** Resolution of the global user (src/settings/global_user.rs): the config
    file layer, overlaid by the `CF_`-prefixed environment layer, is turned
    into a `GlobalUser` record. The merged configuration is modelled as a map
    from key to string value; a key that is absent from the map is one the
    configuration does not define. */
module GlobalSettings {
  import opened Wrappers
  import opened Strings

  type Config = map<string, string>

  datatype GlobalUser = GlobalUser(email: string, apiKey: string, nextDefaultProject: string)

  /** A configuration lookup that found nothing under `key`. */
  datatype ConfigError = NotFound(key: string)

  /** Why `get_global_config` failed: a configuration source could not be
      merged (reported as the source reported it), or the merged
      configuration does not make a user (reported with a hint). */
  datatype GlobalError = SourceError(detail: string) | InvalidGlobalConfig(cause: ConfigError)

  const EmailKey := "email"
  const ApiKeyKey := "api_key"
  const NextProjectKey := "next_default_project"

  /** The project name proposed when none has been recorded yet. */
  const DefaultProjectName := "worker"

  /** `config.merge` of a later layer: its values replace the earlier
      layer's for every key it defines; other keys keep the earlier value. */
  function Overlay(earlier: Config, later: Config): (merged: Config)
    ensures merged.Keys == earlier.Keys + later.Keys
    ensures forall k :: k in later ==> merged[k] == later[k]
    ensures forall k :: k in earlier && k !in later ==> merged[k] == earlier[k]
  {
    earlier + later
  }

  /** The recorded next default project, with the default for a missing or
      empty value. */
  function NextDefaultProject(c: Config): string {
    if NextProjectKey in c && c[NextProjectKey] != "" then c[NextProjectKey]
    else DefaultProjectName
  }

  /** `TryFrom<Config> for GlobalUser`: `email` is looked up first, then
      `api_key`; both must be present but may be empty. */
  function FromConfig(c: Config): (r: Result<GlobalUser, ConfigError>)
    ensures r.Success? <==> EmailKey in c && ApiKeyKey in c
    ensures EmailKey !in c ==> r == Failure(NotFound(EmailKey))
    ensures EmailKey in c && ApiKeyKey !in c ==> r == Failure(NotFound(ApiKeyKey))
    ensures r.Success? ==> r.value.email == c[EmailKey] && r.value.apiKey == c[ApiKeyKey]
    ensures r.Success? && NextProjectKey in c && c[NextProjectKey] != "" ==>
              r.value.nextDefaultProject == c[NextProjectKey]
    ensures r.Success? && (NextProjectKey !in c || c[NextProjectKey] == "") ==>
              r.value.nextDefaultProject == DefaultProjectName
    ensures r.Success? ==> r.value.nextDefaultProject != ""
  {
    if EmailKey !in c then Failure(NotFound(EmailKey))
    else if ApiKeyKey !in c then Failure(NotFound(ApiKeyKey))
    else Success(GlobalUser(c[EmailKey], c[ApiKeyKey], NextDefaultProject(c)))
  }

  /** `get_global_config`: the file layer (or the error merging it), then the
      environment layer on top, then `FromConfig`. A resolution error is
      wrapped so that the user is told to run `wrangler config`. */
  function GetGlobalConfig(fileLayer: Result<Config, string>, envLayer: Config): (r: Result<GlobalUser, GlobalError>)
    ensures fileLayer.Failure? ==> r == Failure(SourceError(fileLayer.error))
    ensures fileLayer.Success? ==>
              (r.Success? <==> EmailKey in Overlay(fileLayer.value, envLayer) && ApiKeyKey in Overlay(fileLayer.value, envLayer))
    ensures r.Failure? && fileLayer.Success? ==> r.error.InvalidGlobalConfig?
    ensures fileLayer.Success? && r.Success? ==>
              var merged := Overlay(fileLayer.value, envLayer);
              r.value == GlobalUser(merged[EmailKey], merged[ApiKeyKey], NextDefaultProject(merged))
    ensures fileLayer.Success? && r.Failure? ==>
              var merged := Overlay(fileLayer.value, envLayer);
              r.error == InvalidGlobalConfig(NotFound(if EmailKey !in merged then EmailKey else ApiKeyKey))
  {
    match fileLayer
    case Failure(e) => Failure(SourceError(e))
    case Success(file) =>
      match FromConfig(Overlay(file, envLayer))
      case Success(user) => Success(user)
      case Failure(e) => Failure(InvalidGlobalConfig(e))
  }

  /** The environment wins over the file for every key it defines. */
  lemma EnvironmentWins(file: Config, env: Config)
    requires EmailKey in env && ApiKeyKey in env
    ensures GetGlobalConfig(Success(file), env).Success?
    ensures GetGlobalConfig(Success(file), env).value.email == env[EmailKey]
    ensures GetGlobalConfig(Success(file), env).value.apiKey == env[ApiKeyKey]
  {
  }

  /** With an empty environment the file alone decides. */
  lemma FileAloneSuffices(file: Config)
    ensures FromConfig(file).Success? ==>
              GetGlobalConfig(Success(file), map[]) == Success(FromConfig(file).value)
    ensures FromConfig(file).Failure? ==>
              GetGlobalConfig(Success(file), map[]) == Failure(InvalidGlobalConfig(FromConfig(file).error))
  {
    assert Overlay(file, map[]) == file;
  }

  /** The message printed for a resolution error. The wording of the
      underlying configuration error comes from the configuration library
      and is passed in as `detail`; the warning emoji is left out. */
  function HintMessage(detail: string): (m: string)
    ensures Contains(m, "run `wrangler config`")
    ensures |detail| <= |m| && m[|m| - |detail|..] == detail
  {
    var lead := "Your global config has an error, ";
    var m := lead + "run `wrangler config`" + ": " + detail;
    ContainsInfix(lead, "run `wrangler config`", ": " + detail);
    assert m == lead + "run `wrangler config`" + (": " + detail);
    m
  }

  /** The text `get_global_config` fails with: a source error as the source
      reported it, a resolution error inside the hint, with the
      configuration library's wording of the cause passed in as `cause`. */
  function ErrorText(e: GlobalError, cause: string): (m: string)
    ensures e.SourceError? ==> m == e.detail
    ensures e.InvalidGlobalConfig? ==> Contains(m, "run `wrangler config`")
    ensures e.InvalidGlobalConfig? ==> |cause| <= |m| && m[|m| - |cause|..] == cause
  {
    match e
    case SourceError(detail) => detail
    case InvalidGlobalConfig(_) => HintMessage(cause)
  }

  /** The user record as the config file stores it. */
  function ToConfig(u: GlobalUser): Config {
    map[EmailKey := u.email, ApiKeyKey := u.apiKey, NextProjectKey := u.nextDefaultProject]
  }

  /** Writing a user and reading the file back (with no environment
      overrides) gives the same user exactly when its project name is
      non-empty; an empty one comes back as `worker`. */
  lemma WriteThenRead(u: GlobalUser)
    ensures GetGlobalConfig(Success(ToConfig(u)), map[]) == Success(u) <==> u.nextDefaultProject != ""
    ensures u.nextDefaultProject == "" ==>
              GetGlobalConfig(Success(ToConfig(u)), map[]) == Success(u.(nextDefaultProject := DefaultProjectName))
  {
    assert Overlay(ToConfig(u), map[]) == ToConfig(u);
  }

  /** `global_config` in src/commands/config.rs: the record written when
      credentials are first configured. */
  function InitialUser(email: string, apiKey: string): (u: GlobalUser)
    ensures GetGlobalConfig(Success(ToConfig(u)), map[]) == Success(u)
    ensures u.email == email && u.apiKey == apiKey
  {
    var u := GlobalUser(email, apiKey, DefaultProjectName);
    WriteThenRead(u);
    u
  }
}

=== FILE: project_name.dfy ===
/** The default-project-name sequencer `generate_project_name`, which appears
    twice in the repository (src/commands/generate/mod.rs and
    src/commands/generate.rs) with the same body. The name is cut at every
    `-`; when the last segment reads as an `i32` it is replaced by that number
    plus one, otherwise a segment `1` is added; the segments are joined back
    with `-`. */
module ProjectName {
  import opened Wrappers
  import opened Strings
  import opened Decimal

  /** The last `-`-separated segment of a project name. */
  function Tail(current: string): string {
    LastPiece(current, '-')
  }

  /** Incrementing the tail stays inside `i32`. The source adds one to an
      `i32` with no overflow check, which panics or wraps depending on the
      build; that case is excluded rather than modelled. */
  predicate IncrementFits(current: string) {
    ParseI32(Tail(current)) != Some(I32Max)
  }

  /** `generate_project_name`: the name proposed after `current`. */
  function NextProjectName(current: string): string
    requires IncrementFits(current)
  {
    var segments := Split(current, '-');
    var last := segments[|segments| - 1];
    match ParseI32(last)
    case Some(v) => Join(segments[..|segments| - 1] + [IntToString(v + 1)], '-')
    case None => Join(segments + ["1"], '-')
  }

  /** A tail that is not an `i32` numeral (a word, an empty segment, a
      numeral out of range) is kept and `-1` is appended. */
  lemma NonNumericTail(current: string)
    requires ParseI32(Tail(current)).None?
    ensures NextProjectName(current) == current + "-1"
  {
    var segments := Split(current, '-');
    JoinSnoc(segments, "1", '-');
  }

  /** A last segment holding anything other than a digit (apart from one
      leading sign) is a word, so `-1` is appended. */
  lemma WordTail(current: string, k: nat)
    requires k < |Tail(current)| && !IsDigit(Tail(current)[k])
    requires k > 0 || (Tail(current)[0] != '+' && Tail(current)[0] != '-')
    ensures IncrementFits(current)
    ensures NextProjectName(current) == current + "-1"
  {
    var t := Tail(current);
    assert !AllDigits(t) by { assert !IsDigit(t[k]); }
    if k > 0 {
      assert !AllDigits(t[1..]) by { assert t[1..][k - 1] == t[k]; }
    }
    NonNumericTail(current);
  }

  /** A numeric last segment `t` after a dash is replaced by the canonical
      rendering of its value plus one; everything before it is kept. */
  lemma NumericTail(prefix: string, t: string, n: int)
    requires '-' !in t
    requires ParseI32(t) == Some(n) && n != I32Max
    ensures IncrementFits(prefix + "-" + t)
    ensures NextProjectName(prefix + "-" + t) == prefix + "-" + IntToString(n + 1)
  {
    var current := prefix + "-" + t;
    SplitSnoc(prefix, t, '-');
    var segments := Split(current, '-');
    assert segments[..|segments| - 1] == Split(prefix, '-');
    JoinSnoc(Split(prefix, '-'), IntToString(n + 1), '-');
  }

  /** A name made of one numeric segment becomes that number plus one, with
      no dash at all. */
  lemma SingleNumericSegment(current: string, n: int)
    requires '-' !in current
    requires ParseI32(current) == Some(n) && n != I32Max
    ensures IncrementFits(current)
    ensures NextProjectName(current) == IntToString(n + 1)
  {
    assert Split(current, '-') == [current];
  }

  /** A name without a dash is its own tail; otherwise it is the text before
      its last dash, the dash, and the tail. */
  lemma TailDecomposition(current: string)
    ensures '-' !in current ==> Tail(current) == current
    ensures '-' in current ==>
              exists prefix :: current == prefix + "-" + Tail(current)
  {
    var segments := Split(current, '-');
    if '-' !in current {
      assert segments == [current];
    } else {
      var init := segments[..|segments| - 1];
      assert segments == init + [Tail(current)];
      JoinSnoc(init, Tail(current), '-');
      assert current == Join(init, '-') + "-" + Tail(current);
    }
  }

  /** Whatever the input, the proposed name ends in a segment that reads as
      a positive `i32`, so the next proposal increments instead of appending. */
  lemma NextHasNumericTail(current: string)
    requires IncrementFits(current)
    ensures ParseI32(Tail(NextProjectName(current))).Some?
    ensures ParseI32(Tail(NextProjectName(current))).value >= 1
  {
    var t := Tail(current);
    if ParseI32(t).None? {
      NonNumericTail(current);
      assert current + "-1" == current + "-" + "1";
      LastPieceSnoc(current, "1", '-');
      OneParses();
    } else {
      var v := ParseI32(t).value;
      assert '-' !in t;
      ParseWithoutMinusIsNonNegative(t);
      var numeral := IntToString(v + 1);
      ParseIntToString(v + 1);
      TailDecomposition(current);
      if '-' !in current {
        SingleNumericSegment(current, v);
        assert '-' !in numeral;
        assert Split(numeral, '-') == [numeral];
      } else {
        var prefix :| current == prefix + "-" + t;
        NumericTail(prefix, t, v);
        LastPieceSnoc(prefix, numeral, '-');
      }
    }
  }

  /** The segment `1` that the sequencer appends is the rendering of one. */
  lemma OneParses()
    ensures IntToString(1) == "1"
    ensures ParseI32("1") == Some(1)
  {
    assert DigitChar(1) == '1';
    ParseIntToString(1);
  }

  /** `k` successive proposals starting from `current`, or `None` when one of
      them would overflow `i32`. */
  function Advance(current: string, k: nat): Option<string> {
    if k == 0 then Some(current)
    else match Advance(current, k - 1)
      case None => None
      case Some(name) =>
        if IncrementFits(name) then Some(NextProjectName(name)) else None
  }

  /** Starting from a name whose tail is not numeric, the `k`-th proposal is
      the name followed by `-k`. */
  lemma {:induction false} CountsUp(current: string, k: nat)
    requires ParseI32(Tail(current)).None?
    requires 1 <= k <= I32Max
    ensures Advance(current, k) == Some(current + "-" + IntToString(k))
  {
    if k == 1 {
      FirstProposal(current);
    } else {
      CountsUp(current, k - 1);
      NextProposal(current, k - 1);
    }
  }

  /** The first proposal after a name with a non-numeric tail adds `-1`. */
  lemma FirstProposal(current: string)
    requires ParseI32(Tail(current)).None?
    ensures Advance(current, 1) == Some(current + "-" + IntToString(1))
  {
    assert Advance(current, 0) == Some(current);
    NonNumericTail(current);
    OneParses();
    assert current + "-1" == current + "-" + IntToString(1);
  }

  /** Once the `n`-th proposal is `current-n`, the next one is `current-(n+1)`. */
  lemma NextProposal(current: string, n: nat)
    requires 1 <= n < I32Max
    requires Advance(current, n) == Some(current + "-" + IntToString(n))
    ensures Advance(current, n + 1) == Some(current + "-" + IntToString(n + 1))
  {
    var t := IntToString(n);
    ParseIntToString(n);
    NumericTail(current, t, n);
  }

  /** A final `9` carries into a second digit: `my-app-9` is followed by
      `my-app-10`. */
  lemma MultiDigitCarry(prefix: string)
    ensures IncrementFits(prefix + "-9")
    ensures NextProjectName(prefix + "-9") == prefix + "-10"
  {
    assert prefix + "-9" == prefix + "-" + "9";
    assert ParseI32("9") == Some(9) by {
      assert DigitsValue("9") == DigitsValue("") * 10 + DigitValue('9');
    }
    assert NextProjectName(prefix + "-" + "9") == prefix + "-" + IntToString(10) by {
      NumericTail(prefix, "9", 9);
    }
    assert IntToString(10) == "10" by {
      assert NatToString(10) == NatToString(1) + [DigitChar(0)];
      assert DigitChar(1) == '1' && DigitChar(0) == '0';
    }
    assert prefix + "-" + "10" == prefix + "-10";
  }

  /** `5` is followed by `6`: the only segment is popped, so no dash appears. */
  lemma LoneNumber()
    ensures NextProjectName("5") == "6"
  {
    assert ParseI32("5") == Some(5) by {
      assert DigitsValue("5") == DigitsValue("") * 10 + DigitValue('5');
    }
    SingleNumericSegment("5", 5);
  }

  /** A trailing dash leaves an empty last segment, which does not parse,
      so `-1` is appended after the dash: `worker-` becomes `worker--1`. */
  lemma EmptyTail(prefix: string)
    ensures IncrementFits(prefix + "-")
    ensures NextProjectName(prefix + "-") == prefix + "--1"
  {
    assert prefix + "-" == prefix + "-" + "";
    LastPieceSnoc(prefix, "", '-');
    NonNumericTail(prefix + "-");
    assert prefix + "-" + "-1" == prefix + "--1";
  }

  /** Zero padding is not preserved: `x-007` is followed by `x-8`. */
  lemma LeadingZerosDropped(prefix: string)
    ensures IncrementFits(prefix + "-007")
    ensures NextProjectName(prefix + "-007") == prefix + "-8"
  {
    assert prefix + "-007" == prefix + "-" + "007";
    assert ParseI32("007") == Some(7) by {
      assert "007"[..2] == "00" && "00"[..1] == "0" && "0"[..0] == "";
    }
    NumericTail(prefix, "007", 7);
    assert IntToString(8) == "8" by {
      assert DigitChar(8) == '8';
    }
    assert prefix + "-" + "8" == prefix + "-8";
  }

  /** Rust's parser accepts a leading `+`, so `x-+5` is followed by `x-6`. */
  lemma PlusSignAccepted(prefix: string)
    ensures IncrementFits(prefix + "-+5")
    ensures NextProjectName(prefix + "-+5") == prefix + "-6"
  {
    assert prefix + "-+5" == prefix + "-" + "+5";
    assert ParseI32("+5") == Some(5) by {
      assert "+5"[1..] == "5";
      assert DigitsValue("5") == DigitsValue("") * 10 + DigitValue('5');
    }
    NumericTail(prefix, "+5", 5);
    assert IntToString(6) == "6" by {
      assert DigitChar(6) == '6';
    }
    assert prefix + "-" + "6" == prefix + "-6";
  }

  /** A numeral too large for `i32` does not parse, so `-1` is appended:
      `x-99999999999` is followed by `x-99999999999-1`. Eleven digits
      without a leading zero always exceed the range. */
  lemma OutOfRangeTail(prefix: string, t: string)
    requires AllDigits(t) && |t| >= 11 && t[0] != '0'
    ensures IncrementFits(prefix + "-" + t)
    ensures NextProjectName(prefix + "-" + t) == prefix + "-" + t + "-1"
  {
    var current := prefix + "-" + t;
    assert '-' !in t by {
      assert forall i :: 0 <= i < |t| ==> IsDigit(t[i]);
    }
    assert Tail(current) == t by {
      LastPieceSnoc(prefix, t, '-');
    }
    assert ParseI32(t).None? by {
      LongNumeralOutOfRange(t);
    }
    NonNumericTail(current);
  }
}

=== FILE: publish.dfy ===
/** `publish` (src/commands/publish/mod.rs): validate the manifest, build,
    upload the script, then either expose it on the account's workers.dev
    subdomain or register its route. Every remote or external result (the
    build, the upload form, each HTTP exchange, the subdomain lookup, route
    construction and registration) is an input; the pipeline is a function
    from those results to the stages it attempts, the success messages it
    prints and its final outcome. */
module Publish {
  import opened Wrappers
  import opened Strings
  import opened Validate

  const ApiBase := "https://api.cloudflare.com/client/v4"

  /** The endpoint the script is uploaded to with a `PUT`. */
  function UploadUrl(accountId: string, name: string): string {
    ApiBase + "/accounts/" + accountId + "/workers/scripts/" + name
  }

  /** The endpoint a `POST` to enables the script on the subdomain. */
  function SubdomainUrl(accountId: string, name: string): string {
    ApiBase + "/accounts/" + accountId + "/workers/scripts/" + name + "/subdomain"
  }

  /** The subdomain endpoint is the upload endpoint one level deeper. */
  lemma SubdomainUrlExtendsUploadUrl(accountId: string, name: string)
    ensures SubdomainUrl(accountId, name) == UploadUrl(accountId, name) + "/subdomain"
  {
  }

  /** Where the script can be reached once it is enabled on the subdomain. */
  function PublicUrl(name: string, subdomain: string): (url: string)
    ensures Contains(url, "." + subdomain + ".workers.dev")
  {
    ContainsInfix("https://" + name, "." + subdomain + ".workers.dev", "");
    assert "https://" + name + ("." + subdomain + ".workers.dev") + "" == "https://" + name + "." + subdomain + ".workers.dev";
    "https://" + name + "." + subdomain + ".workers.dev"
  }

  /** `build_subdomain_request`: the JSON object `{"enabled": true}` as
      `serde_json` prints it, without spaces. */
  const SubdomainRequestBody := "{\"enabled\":true}"

  /** An HTTP exchange: a response with its status and body, or a request
      that could not be sent. */
  datatype Exchange = Responded(status: int, body: string) | NotSent(reason: string)

  /** `StatusCode::is_success`: the 2xx range. */
  predicate IsSuccess(status: int) {
    200 <= status <= 299
  }

  predicate Succeeded(x: Exchange) {
    x.Responded? && IsSuccess(x.status)
  }

  /** What the world answers, one entry per external step. */
  datatype Remote = Remote(
    build: Result<(), string>,
    uploadForm: Result<(), string>,
    upload: Exchange,
    subdomain: Result<string, string>,
    enable: Exchange,
    route: Result<string, string>,
    routePublish: Result<(), string>)

  /** The stages `publish` attempts. */
  datatype Stage =
    | CheckManifest
    | BuildScript
    | UploadScript(url: string)
    | LookupSubdomain(accountId: string)
    | EnableSubdomain(url: string, body: string)
    | MakeRoute
    | PublishRoute(pattern: string)

  datatype PublishError =
    | InvalidManifest(missing: ValidationError)
    | BuildFailed(detail: string)
    | UploadFormFailed(detail: string)
    | RequestFailed(detail: string)
    | UploadRejected(status: int, body: string)
    | SubdomainUnavailable(detail: string)
    | EnableRejected(status: int, body: string)
    | RouteFailed(detail: string)

  datatype Run = Run(stages: seq<Stage>, messages: seq<string>, outcome: Result<(), PublishError>)

  const UploadedMessage := "Successfully published your script."
  const PublishedMessage := "Success! Your worker was successfully published."

  function AvailableMessage(name: string, subdomain: string): string {
    "Successfully made your script available at " + PublicUrl(name, subdomain)
  }

  function RoutedMessage(pattern: string): string {
    "Success! Your worker was successfully published. You can view it at " + pattern + "."
  }

  /** A failed upload: never sent, or answered outside 2xx. */
  function UploadError(x: Exchange): PublishError
    requires !Succeeded(x)
  {
    match x
    case NotSent(reason) => RequestFailed(reason)
    case Responded(status, body) => UploadRejected(status, body)
  }

  /** A failed enablement: never sent, or answered outside 2xx. */
  function EnableError(x: Exchange): PublishError
    requires !Succeeded(x)
  {
    match x
    case NotSent(reason) => RequestFailed(reason)
    case Responded(status, body) => EnableRejected(status, body)
  }

  /** `make_public_on_subdomain`: look up the account's subdomain, then ask
      for the script to be enabled on it. */
  function MakePublicOnSubdomain(p: Project, remote: Remote): (r: Run)
    ensures |r.stages| >= 1 && r.stages[0] == LookupSubdomain(p.accountId)
    ensures remote.subdomain.Failure? ==> r.stages == [LookupSubdomain(p.accountId)]
    ensures r.outcome.Success? <==> remote.subdomain.Success? && Succeeded(remote.enable)
    ensures r.outcome.Success? ==> r.messages == [AvailableMessage(p.name, remote.subdomain.value)]
    ensures remote.subdomain.Failure? ==> r.outcome == Failure(SubdomainUnavailable(remote.subdomain.error))
    ensures remote.subdomain.Success? && !Succeeded(remote.enable) ==> r.outcome == Failure(EnableError(remote.enable))
  {
    var lookup := LookupSubdomain(p.accountId);
    match remote.subdomain
    case Failure(e) => Run([lookup], [], Failure(SubdomainUnavailable(e)))
    case Success(subdomain) =>
      var stages := [lookup, EnableSubdomain(SubdomainUrl(p.accountId, p.name), SubdomainRequestBody)];
      if Succeeded(remote.enable) then Run(stages, [AvailableMessage(p.name, subdomain)], Success(()))
      else Run(stages, [], Failure(EnableError(remote.enable)))
  }

  /** The subdomain step runs for a preview publish unless the manifest
      marks the worker private; an absent flag means public. */
  predicate ExposesOnSubdomain(p: Project, release: bool) {
    !release && !p.private.GetOr(false)
  }

  /** `publish_script`: build the upload form, `PUT` it, and on a 2xx
      response expose the script on the subdomain when that applies. */
  function PublishScript(p: Project, release: bool, remote: Remote): Run {
    match remote.uploadForm
    case Failure(e) => Run([], [], Failure(UploadFormFailed(e)))
    case Success(_) =>
      var upload := [UploadScript(UploadUrl(p.accountId, p.name))];
      if !Succeeded(remote.upload) then
        Run(upload, [], Failure(UploadError(remote.upload)))
      else if ExposesOnSubdomain(p, release) then
        var exposed := MakePublicOnSubdomain(p, remote);
        Run(upload + exposed.stages, [UploadedMessage] + exposed.messages, exposed.outcome)
      else Run(upload, [UploadedMessage], Success(()))
  }

  /** `Route::new` then `Route::publish`, run for a release. */
  function PublishRouteStages(remote: Remote): Run {
    match remote.route
    case Failure(e) => Run([MakeRoute], [], Failure(RouteFailed(e)))
    case Success(pattern) =>
      match remote.routePublish
      case Failure(e) => Run([MakeRoute, PublishRoute(pattern)], [], Failure(RouteFailed(e)))
      case Success(_) => Run([MakeRoute, PublishRoute(pattern)], [RoutedMessage(pattern)], Success(()))
  }

  /** `publish`: validate the manifest, then run the pipeline. */
  function PublishCommand(p: Project, release: bool, remote: Remote): Run {
    Pipeline(ValidateProject(p, release), p, release, remote)
  }

  /** `publish` from the outcome `check` of `validate_project` on: each
      stage runs only when every earlier one succeeded. */
  function Pipeline(check: Result<(), ValidationError>, p: Project, release: bool, remote: Remote): Run {
    var checked := [CheckManifest];
    match check
    case Failure(e) => Run(checked, [], Failure(InvalidManifest(e)))
    case Success(_) =>
      if remote.build.Failure? then Run(checked + [BuildScript], [], Failure(BuildFailed(remote.build.error)))
      else
        var script := PublishScript(p, release, remote);
        var before := checked + [BuildScript] + script.stages;
        if script.outcome.Failure? then Run(before, script.messages, script.outcome)
        else if release then
          var routed := PublishRouteStages(remote);
          Run(before + routed.stages, script.messages + routed.messages, routed.outcome)
        else Run(before, script.messages + [PublishedMessage], Success(()))
  }

  /** A manifest with a missing field stops `publish` at the check, with
      an error listing exactly the missing fields; a complete manifest runs
      the pipeline from a passed check. */
  lemma PublishChecksManifestFirst(p: Project, release: bool, remote: Remote)
    ensures |MissingFields(p, release)| > 0 ==>
              PublishCommand(p, release, remote).stages == [CheckManifest] &&
              PublishCommand(p, release, remote).outcome.Failure? &&
              PublishCommand(p, release, remote).outcome.error.InvalidManifest? &&
              PublishCommand(p, release, remote).outcome.error.missing.missing == MissingFields(p, release)
    ensures |MissingFields(p, release)| == 0 ==>
              PublishCommand(p, release, remote) == Pipeline(Success(()), p, release, remote)
  {
  }

  // ---------------------------------------------------------------------
  // A reference description of the pipeline: the stages planned for the
  // publishing mode, and how far through them a run gets.

  /** Every stage a run could attempt for this manifest and mode, in order.
      The route pattern is only read once route construction succeeded. */
  function Plan(p: Project, release: bool, remote: Remote): seq<Stage> {
    [CheckManifest, BuildScript, UploadScript(UploadUrl(p.accountId, p.name))]
    + (if ExposesOnSubdomain(p, release) then
         [LookupSubdomain(p.accountId), EnableSubdomain(SubdomainUrl(p.accountId, p.name), SubdomainRequestBody)]
       else if release then
         [MakeRoute, PublishRoute(if remote.route.Success? then remote.route.value else "")]
       else [])
  }

  /** How many planned stages a run attempts: it stops at the first stage
      that fails. */
  function Reached(check: Result<(), ValidationError>, p: Project, release: bool, remote: Remote): nat {
    if check.Failure? then 1
    else if remote.build.Failure? || remote.uploadForm.Failure? then 2
    else if !Succeeded(remote.upload) then 3
    else if ExposesOnSubdomain(p, release) then (if remote.subdomain.Failure? then 4 else 5)
    else if release then (if remote.route.Failure? then 4 else 5)
    else 3
  }

  /** A run that stops at or before the upload follows the plan. */
  lemma FollowsPlanUpToUpload(check: Result<(), ValidationError>, p: Project, release: bool, remote: Remote)
    requires !(ReachesUpload(check, remote) && Succeeded(remote.upload))
    ensures Reached(check, p, release, remote) <= |Plan(p, release, remote)|
    ensures Pipeline(check, p, release, remote).stages == Plan(p, release, remote)[..Reached(check, p, release, remote)]
  {
    var plan := Plan(p, release, remote);
    var r := Pipeline(check, p, release, remote);
    var upload := UploadScript(UploadUrl(p.accountId, p.name));
    if check.Failure? {
      assert r.stages == [CheckManifest] == plan[..1];
    } else if remote.build.Failure? {
      assert r.stages == [CheckManifest, BuildScript] == plan[..2];
    } else if remote.uploadForm.Failure? {
      assert PublishScript(p, release, remote).stages == [];
      assert r.stages == [CheckManifest, BuildScript] == plan[..2];
    } else {
      assert PublishScript(p, release, remote).stages == [upload];
      assert r.stages == [CheckManifest, BuildScript, upload] == plan[..3];
    }
  }

  /** A public preview whose upload went through follows the plan. */
  lemma FollowsPlanOnSubdomain(check: Result<(), ValidationError>, p: Project, release: bool, remote: Remote)
    requires ReachesUpload(check, remote) && Succeeded(remote.upload)
    requires ExposesOnSubdomain(p, release)
    ensures Reached(check, p, release, remote) <= |Plan(p, release, remote)|
    ensures Pipeline(check, p, release, remote).stages == Plan(p, release, remote)[..Reached(check, p, release, remote)]
  {
    var upload := UploadScript(UploadUrl(p.accountId, p.name));
    var exposed := MakePublicOnSubdomain(p, remote).stages;
    var tail := Plan(p, release, remote)[3..Reached(check, p, release, remote)];
    assert exposed == tail by {
      if remote.subdomain.Failure? {
        assert exposed == [LookupSubdomain(p.accountId)];
      }
    }
    assert PublishScript(p, release, remote).stages == [upload] + exposed;
    assert Pipeline(check, p, release, remote).stages == [CheckManifest, BuildScript, upload] + tail;
  }

  /** A release, or a private preview, whose upload went through follows
      the plan. */
  lemma FollowsPlanOtherwise(check: Result<(), ValidationError>, p: Project, release: bool, remote: Remote)
    requires ReachesUpload(check, remote) && Succeeded(remote.upload)
    requires !ExposesOnSubdomain(p, release)
    ensures Reached(check, p, release, remote) <= |Plan(p, release, remote)|
    ensures Pipeline(check, p, release, remote).stages == Plan(p, release, remote)[..Reached(check, p, release, remote)]
  {
    var plan := Plan(p, release, remote);
    var r := Pipeline(check, p, release, remote);
    var upload := UploadScript(UploadUrl(p.accountId, p.name));
    assert PublishScript(p, release, remote).stages == [upload];
    assert PublishScript(p, release, remote).outcome.Success?;
    if !release {
      assert r.stages == plan;
    } else if remote.route.Failure? {
      assert r.stages == [CheckManifest, BuildScript, upload, MakeRoute] == plan[..4];
    } else {
      assert r.stages == plan;
    }
  }

  /** The stages a run attempts are exactly the first `Reached` stages of
      the plan. */
  lemma StagesFollowPlan(check: Result<(), ValidationError>, p: Project, release: bool, remote: Remote)
    ensures Reached(check, p, release, remote) <= |Plan(p, release, remote)|
    ensures Pipeline(check, p, release, remote).stages == Plan(p, release, remote)[..Reached(check, p, release, remote)]
  {
    if !(ReachesUpload(check, remote) && Succeeded(remote.upload)) {
      FollowsPlanUpToUpload(check, p, release, remote);
    } else if ExposesOnSubdomain(p, release) {
      FollowsPlanOnSubdomain(check, p, release, remote);
    } else {
      FollowsPlanOtherwise(check, p, release, remote);
    }
  }

  // ---------------------------------------------------------------------
  // Properties of the pipeline

  /** Position of a stage in the pipeline's fixed order. The subdomain and
      route stages share positions because a run holds one kind or the
      other, never both. */
  function StageRank(s: Stage): nat {
    match s
    case CheckManifest => 0
    case BuildScript => 1
    case UploadScript(_) => 2
    case LookupSubdomain(_) => 3
    case EnableSubdomain(_, _) => 4
    case MakeRoute => 3
    case PublishRoute(_) => 4
  }

  predicate InOrder(stages: seq<Stage>) {
    forall i, j :: 0 <= i < j < |stages| ==> StageRank(stages[i]) < StageRank(stages[j])
  }

  /** Planned stage `i` sits at rank `i`. */
  lemma PlanRanks(p: Project, release: bool, remote: Remote)
    ensures forall i :: 0 <= i < |Plan(p, release, remote)| ==> StageRank(Plan(p, release, remote)[i]) == i
  {
  }

  predicate Uploads(stages: seq<Stage>) {
    exists i :: 0 <= i < |stages| && stages[i].UploadScript?
  }

  /** Any stage after the upload: subdomain or route provisioning. */
  predicate Provisions(stages: seq<Stage>) {
    exists i :: 0 <= i < |stages| && StageRank(stages[i]) >= 3
  }

  predicate TouchesSubdomain(stages: seq<Stage>) {
    exists i :: 0 <= i < |stages| && (stages[i].LookupSubdomain? || stages[i].EnableSubdomain?)
  }

  predicate TouchesRoute(stages: seq<Stage>) {
    exists i :: 0 <= i < |stages| && (stages[i].MakeRoute? || stages[i].PublishRoute?)
  }

  /** The upload is reached: the manifest check passed, the build worked
      and the upload form was built. */
  predicate ReachesUpload(check: Result<(), ValidationError>, remote: Remote) {
    check.Success? && remote.build.Success? && remote.uploadForm.Success?
  }

  /** An invalid manifest stops the command before anything is built,
      uploaded or provisioned, with the validation error. */
  lemma InvalidManifestStopsEverything(check: Result<(), ValidationError>, p: Project, release: bool, remote: Remote)
    requires check.Failure?
    ensures Pipeline(check, p, release, remote).stages == [CheckManifest]
    ensures Pipeline(check, p, release, remote).outcome == Failure(InvalidManifest(check.error))
  {
  }

  /** A failed build means no upload and nothing after it. */
  lemma FailedBuildStopsUpload(check: Result<(), ValidationError>, p: Project, release: bool, remote: Remote)
    requires check.Success?
    requires remote.build.Failure?
    ensures Pipeline(check, p, release, remote).stages == [CheckManifest, BuildScript]
    ensures Pipeline(check, p, release, remote).outcome == Failure(BuildFailed(remote.build.error))
  {
  }

  /** Stages happen in order: validation, build, upload, then provisioning. */
  lemma StagesInOrder(check: Result<(), ValidationError>, p: Project, release: bool, remote: Remote)
    ensures InOrder(Pipeline(check, p, release, remote).stages)
    ensures |Pipeline(check, p, release, remote).stages| >= 1
    ensures Pipeline(check, p, release, remote).stages[0] == CheckManifest
  {
    StagesFollowPlan(check, p, release, remote);
    PlanRanks(p, release, remote);
  }

  /** Nothing is uploaded unless the manifest is valid, the build worked and
      the upload form was built. */
  lemma UploadNeedsValidBuild(check: Result<(), ValidationError>, p: Project, release: bool, remote: Remote)
    requires Uploads(Pipeline(check, p, release, remote).stages)
    ensures ReachesUpload(check, remote)
  {
    StagesFollowPlan(check, p, release, remote);
    PlanRanks(p, release, remote);
  }

  /** An upload that does not answer 2xx ends the command: no subdomain and
      no route stage follows. */
  lemma FailedUploadStopsProvisioning(check: Result<(), ValidationError>, p: Project, release: bool, remote: Remote)
    requires !Succeeded(remote.upload)
    ensures !Provisions(Pipeline(check, p, release, remote).stages)
    ensures Pipeline(check, p, release, remote).outcome.Failure?
    ensures ReachesUpload(check, remote) ==>
              Pipeline(check, p, release, remote).outcome == Failure(UploadError(remote.upload))
  {
    StagesFollowPlan(check, p, release, remote);
    PlanRanks(p, release, remote);
  }

  /** Once the build is through, a failing run carries the error of the
      exchange that failed: the rejected request's status and body, the
      subdomain lookup's error, or the route's error. */
  lemma ErrorsPastTheBuild(check: Result<(), ValidationError>, p: Project, release: bool, remote: Remote)
    requires ReachesUpload(check, remote)
    ensures remote.upload.NotSent? ==>
              Pipeline(check, p, release, remote).outcome == Failure(RequestFailed(remote.upload.reason))
    ensures remote.upload.Responded? && !IsSuccess(remote.upload.status) ==>
              Pipeline(check, p, release, remote).outcome == Failure(UploadRejected(remote.upload.status, remote.upload.body))
    ensures Succeeded(remote.upload) && ExposesOnSubdomain(p, release) && remote.subdomain.Failure? ==>
              Pipeline(check, p, release, remote).outcome == Failure(SubdomainUnavailable(remote.subdomain.error))
    ensures Succeeded(remote.upload) && ExposesOnSubdomain(p, release) && remote.subdomain.Success? &&
            remote.enable.Responded? && !IsSuccess(remote.enable.status) ==>
              Pipeline(check, p, release, remote).outcome == Failure(EnableRejected(remote.enable.status, remote.enable.body))
    ensures Succeeded(remote.upload) && ExposesOnSubdomain(p, release) && remote.subdomain.Success? &&
            remote.enable.NotSent? ==>
              Pipeline(check, p, release, remote).outcome == Failure(RequestFailed(remote.enable.reason))
    ensures Succeeded(remote.upload) && release && remote.route.Failure? ==>
              Pipeline(check, p, release, remote).outcome == Failure(RouteFailed(remote.route.error))
    ensures Succeeded(remote.upload) && release && remote.route.Success? && remote.routePublish.Failure? ==>
              Pipeline(check, p, release, remote).outcome == Failure(RouteFailed(remote.routePublish.error))
  {
  }

  /** A run gets past the upload exactly when the upload went through and
      the mode has something to provision. */
  lemma ReachedProvisioning(check: Result<(), ValidationError>, p: Project, release: bool, remote: Remote)
    ensures Reached(check, p, release, remote) >= 4 <==>
              ReachesUpload(check, remote) && Succeeded(remote.upload) && (ExposesOnSubdomain(p, release) || release)
  {
  }

  /** Within the first `k` planned stages, the subdomain stages appear
      exactly when `k` goes past the upload and the plan exposes the script. */
  lemma PlanTouchesSubdomain(p: Project, release: bool, remote: Remote, k: nat)
    requires k <= |Plan(p, release, remote)|
    ensures TouchesSubdomain(Plan(p, release, remote)[..k]) <==> k >= 4 && ExposesOnSubdomain(p, release)
  {
    var prefix := Plan(p, release, remote)[..k];
    if k >= 4 && ExposesOnSubdomain(p, release) {
      assert prefix[3].LookupSubdomain?;
    }
  }

  /** Within the first `k` planned stages, the route stages appear exactly
      when `k` goes past the upload and the mode is a release. */
  lemma PlanTouchesRoute(p: Project, release: bool, remote: Remote, k: nat)
    requires k <= |Plan(p, release, remote)|
    ensures TouchesRoute(Plan(p, release, remote)[..k]) <==> k >= 4 && release
  {
    var prefix := Plan(p, release, remote)[..k];
    if k >= 4 && release {
      assert prefix[3].MakeRoute?;
    }
  }

  /** The subdomain is touched exactly for a preview publish of a worker
      that is not private, once the upload has answered 2xx. */
  lemma SubdomainExactlyWhenPreview(check: Result<(), ValidationError>, p: Project, release: bool, remote: Remote)
    ensures TouchesSubdomain(Pipeline(check, p, release, remote).stages) <==>
              ReachesUpload(check, remote) && Succeeded(remote.upload) && ExposesOnSubdomain(p, release)
  {
    StagesFollowPlan(check, p, release, remote);
    ReachedProvisioning(check, p, release, remote);
    PlanTouchesSubdomain(p, release, remote, Reached(check, p, release, remote));
  }

  /** The route is touched exactly for a release, once the upload has
      answered 2xx. */
  lemma RouteExactlyWhenRelease(check: Result<(), ValidationError>, p: Project, release: bool, remote: Remote)
    ensures TouchesRoute(Pipeline(check, p, release, remote).stages) <==>
              ReachesUpload(check, remote) && Succeeded(remote.upload) && release
  {
    StagesFollowPlan(check, p, release, remote);
    ReachedProvisioning(check, p, release, remote);
    PlanTouchesRoute(p, release, remote, Reached(check, p, release, remote));
  }

  /** One run never provisions both a subdomain and a route. */
  lemma NeverBoth(check: Result<(), ValidationError>, p: Project, release: bool, remote: Remote)
    ensures !(TouchesSubdomain(Pipeline(check, p, release, remote).stages) &&
              TouchesRoute(Pipeline(check, p, release, remote).stages))
  {
    SubdomainExactlyWhenPreview(check, p, release, remote);
    RouteExactlyWhenRelease(check, p, release, remote);
  }

  /** A stage's request goes where it should: the upload to the script's
      endpoint, the enablement as `{"enabled":true}` to its subdomain
      endpoint, and the lookup for the manifest's account. */
  predicate WellFormedRequest(p: Project, s: Stage) {
    (s.UploadScript? ==> s.url == UploadUrl(p.accountId, p.name)) &&
    (s.EnableSubdomain? ==> s.url == SubdomainUrl(p.accountId, p.name) && s.body == SubdomainRequestBody) &&
    (s.LookupSubdomain? ==> s.accountId == p.accountId)
  }

  /** Every planned stage, hence every stage of a prefix of the plan, is a
      well-formed request. */
  lemma PlanRequestsWellFormed(p: Project, release: bool, remote: Remote, k: nat)
    requires k <= |Plan(p, release, remote)|
    ensures forall s :: s in Plan(p, release, remote)[..k] ==> WellFormedRequest(p, s)
  {
    var plan := Plan(p, release, remote);
    assert forall i :: 0 <= i < |plan| ==> WellFormedRequest(p, plan[i]);
    assert forall s :: s in plan[..k] ==> s in plan;
  }

  /** Every request a run sends is well formed. */
  lemma RequestsAreWellFormed(check: Result<(), ValidationError>, p: Project, release: bool, remote: Remote)
    ensures forall s :: s in Pipeline(check, p, release, remote).stages ==> WellFormedRequest(p, s)
  {
    StagesFollowPlan(check, p, release, remote);
    PlanRequestsWellFormed(p, release, remote, Reached(check, p, release, remote));
  }

  /** A preview publish of a public worker that goes through reports the
      address `https://{name}.{subdomain}.workers.dev`. */
  lemma PreviewReportsPublicUrl(check: Result<(), ValidationError>, p: Project, remote: Remote)
    requires ReachesUpload(check, remote) && Succeeded(remote.upload)
    requires !p.private.GetOr(false)
    requires remote.subdomain.Success? && Succeeded(remote.enable)
    ensures Pipeline(check, p, false, remote).outcome.Success?
    ensures AvailableMessage(p.name, remote.subdomain.value) in Pipeline(check, p, false, remote).messages
  {
    var r := Pipeline(check, p, false, remote);
    assert r.messages == [UploadedMessage, AvailableMessage(p.name, remote.subdomain.value), PublishedMessage];
  }

  /** The command succeeds exactly when every stage it needs succeeds. */
  lemma SucceedsExactly(check: Result<(), ValidationError>, p: Project, release: bool, remote: Remote)
    ensures Pipeline(check, p, release, remote).outcome.Success? <==>
              ReachesUpload(check, remote) && Succeeded(remote.upload) &&
              (ExposesOnSubdomain(p, release) ==> remote.subdomain.Success? && Succeeded(remote.enable)) &&
              (release ==> remote.route.Success? && remote.routePublish.Success?)
  {
  }
}

=== FILE: scaffold.dfy ===
/** What the two `generate` commands share: the project-template tool they
    install and the argument list they run it with. */
module Scaffold {

  /** The generator executable and the owner it is installed from. */
  const ToolName := "cargo-generate"
  const ToolOwner := "ashleygwilliams"

  /** The arguments the generator is run with: clone `template` from git
      into a project called `name`, overwriting what is there. */
  function GeneratorArgs(template: string, name: string): (args: seq<string>)
    ensures |args| == 6
    ensures args[0] == "generate" && args[5] == "--force"
    ensures args[1] == "--git" && args[2] == template
    ensures args[3] == "--name" && args[4] == name
  {
    ["generate", "--git", template, "--name", name, "--force"]
  }
}

=== FILE: strings.dfy ===
/** String primitives shared by the Rust side (`str::split`, `str::contains`,
    `[&str]::join`) and the JavaScript side (`indexOf`, `split`, `replace`) of
    the system. Strings are sequences of characters. */
module Strings {
  import opened Wrappers

  /** `t` occurs in `s` starting at position `i`. */
  predicate IsAt(s: string, t: string, i: nat) {
    i + |t| <= |s| && s[i..i + |t|] == t
  }

  /** First position at or after `i` where `t` occurs in `s`. */
  function IndexFrom(s: string, t: string, i: nat): (r: Option<nat>)
    requires i <= |s|
    ensures r.Some? ==> i <= r.value && IsAt(s, t, r.value)
    ensures r.Some? ==> forall j :: i <= j < r.value ==> !IsAt(s, t, j)
    ensures r.None? ==> forall j :: i <= j <= |s| ==> !IsAt(s, t, j)
    decreases |s| - i
  {
    if IsAt(s, t, i) then Some(i)
    else if i == |s| then None
    else IndexFrom(s, t, i + 1)
  }

  /** JavaScript's `s.indexOf(t)`, with `None` standing for `-1`: the first
      position where `t` occurs. An empty `t` occurs at position 0. */
  function IndexOf(s: string, t: string): (r: Option<nat>)
    ensures r.Some? ==> IsAt(s, t, r.value)
    ensures r.Some? ==> forall j :: 0 <= j < r.value ==> !IsAt(s, t, j)
    ensures r.None? <==> forall j :: 0 <= j <= |s| ==> !IsAt(s, t, j)
  {
    IndexFrom(s, t, 0)
  }

  /** `t` occurs somewhere in `s` (Rust `str::contains`, JavaScript
      `indexOf(t) !== -1`). */
  predicate Contains(s: string, t: string) {
    IndexOf(s, t).Some?
  }

  lemma ContainsIff(s: string, t: string)
    ensures Contains(s, t) <==> exists j: nat :: IsAt(s, t, j)
  {
    if exists j: nat :: IsAt(s, t, j) {
      var j: nat :| IsAt(s, t, j);
      assert j <= |s|;
    }
  }

  /** A witness occurrence makes `Contains` true. */
  lemma ContainsAt(s: string, t: string, j: nat)
    requires IsAt(s, t, j)
    ensures Contains(s, t)
  {
    ContainsIff(s, t);
  }

  /** The infix of a concatenation is contained in it. */
  lemma ContainsInfix(a: string, b: string, c: string)
    ensures Contains(a + b + c, b)
  {
    var s := a + b + c;
    assert s[|a|..|a| + |b|] == b;
    ContainsAt(s, b, |a|);
  }

  /** Position of the first `c` in `s`. */
  function FirstIndex(s: string, c: char): (i: nat)
    requires c in s
    ensures i < |s| && s[i] == c && c !in s[..i]
  {
    if s[0] == c then 0
    else
      var k := FirstIndex(s[1..], c);
      assert s[1..][..k] == s[1..k + 1];
      assert s[..k + 1] == [s[0]] + s[1..k + 1];
      1 + k
  }

  /** The pieces of `xs` glued together with `c` between neighbours
      (Rust `join`). */
  function Join(xs: seq<string>, c: char): string {
    if |xs| == 0 then ""
    else if |xs| == 1 then xs[0]
    else xs[0] + [c] + Join(xs[1..], c)
  }

  /** `s` cut at every `c` (Rust `split` with a one-character pattern, and
      JavaScript `split` with a one-character separator): empty pieces are
      kept, so there is always at least one piece and gluing them back
      together gives `s`. */
  function Split(s: string, c: char): (r: seq<string>)
    ensures |r| >= 1
    ensures forall k :: 0 <= k < |r| ==> c !in r[k]
    ensures Join(r, c) == s
    decreases |s|
  {
    if c !in s then [s]
    else
      var i := FirstIndex(s, c);
      var rest := Split(s[i + 1..], c);
      assert s == s[..i] + [c] + s[i + 1..];
      [s[..i]] + rest
  }

  /** Splitting a separator-free `a`, a separator and any `b` yields `a`
      followed by the pieces of `b`. */
  lemma SplitCons(a: string, b: string, c: char)
    requires c !in a
    ensures Split(a + [c] + b, c) == [a] + Split(b, c)
  {
    var s := a + [c] + b;
    FirstIndexAfter(a, b, c);
    assert s[..|a|] == a;
    assert s[|a| + 1..] == b;
  }

  /** The first separator after a separator-free `a` is the one right
      after it. */
  lemma {:induction false} FirstIndexAfter(a: string, b: string, c: char)
    requires c !in a
    ensures FirstIndex(a + [c] + b, c) == |a|
    decreases |a|
  {
    var s := a + [c] + b;
    if |a| > 0 {
      assert s[0] == a[0] != c;
      assert s[1..] == a[1..] + [c] + b;
      FirstIndexAfter(a[1..], b, c);
    }
  }

  /** The last piece of `Split(s, c)`. */
  function LastPiece(s: string, c: char): string {
    var parts := Split(s, c);
    parts[|parts| - 1]
  }

  /** Appending one more piece after a separator. */
  lemma {:induction false} JoinSnoc(xs: seq<string>, y: string, c: char)
    requires |xs| >= 1
    ensures Join(xs + [y], c) == Join(xs, c) + [c] + y
    decreases |xs|
  {
    if |xs| == 1 {
      assert (xs + [y])[1..] == [y];
    } else {
      assert (xs + [y])[1..] == xs[1..] + [y];
      JoinSnoc(xs[1..], y, c);
    }
  }

  /** Splitting `p`, a separator and a separator-free `t` yields the pieces
      of `p` followed by `t`. */
  lemma {:induction false} SplitSnoc(p: string, t: string, c: char)
    requires c !in t
    ensures Split(p + [c] + t, c) == Split(p, c) + [t]
    decreases |p|
  {
    if c !in p {
      SplitTwo(p, t, c);
    } else {
      var i := FirstIndex(p, c);
      var head, rest := p[..i], p[i + 1..];
      assert p == head + [c] + rest;
      assert p + [c] + t == head + [c] + (rest + [c] + t);
      SplitSnoc(rest, t, c);
      SplitSnocStep(head, rest, t, c);
    }
  }

  /** Two separator-free texts around one separator are the two pieces. */
  lemma SplitTwo(a: string, b: string, c: char)
    requires c !in a && c !in b
    ensures Split(a + [c] + b, c) == Split(a, c) + [b]
  {
    assert Split(b, c) == [b];
    assert Split(a, c) == [a];
    SplitCons(a, b, c);
  }

  /** A separator-free head in front of a text whose split ends in `t` keeps
      that split ending in `t`. */
  lemma SplitSnocStep(head: string, rest: string, t: string, c: char)
    requires c !in head
    requires Split(rest + [c] + t, c) == Split(rest, c) + [t]
    ensures Split(head + [c] + (rest + [c] + t), c) == Split(head + [c] + rest, c) + [t]
  {
    var u := rest + [c] + t;
    calc {
      Split(head + [c] + u, c);
      { SplitCons(head, u, c); }
      [head] + Split(u, c);
      [head] + (Split(rest, c) + [t]);
      ([head] + Split(rest, c)) + [t];
      { SplitCons(head, rest, c); }
      Split(head + [c] + rest, c) + [t];
    }
  }

  /** The last piece after a final separator is the text after it. */
  lemma LastPieceSnoc(p: string, t: string, c: char)
    requires c !in t
    ensures LastPiece(p + [c] + t, c) == t
  {
    SplitSnoc(p, t, c);
  }

  /** JavaScript's `s.replace(pat, rep)` with a string pattern: only the
      first occurrence of `pat` is replaced. */
  function ReplaceFirst(s: string, pat: string, rep: string): string {
    match IndexOf(s, pat)
    case None => s
    case Some(i) => s[..i] + rep + s[i + |pat|..]
  }

  /** Removing a leading occurrence of `pat` leaves the rest untouched. */
  lemma ReplaceFirstPrefix(pat: string, rest: string)
    ensures ReplaceFirst(pat + rest, pat, "") == rest
  {
    var s := pat + rest;
    assert IsAt(s, pat, 0);
  }
}

=== FILE: validate.dfy ===
/** `validate_project` (src/commands/publish/mod.rs): the manifest check run
    before anything is built or uploaded. It collects every missing field in
    one pass, in a fixed order, and words the error after how many there are
    and where the worker was going to be published. */
module Validate {
  import opened Wrappers
  import opened Strings

  datatype KvNamespace = KvNamespace(binding: string, id: string)

  /** The manifest fields the check reads. */
  datatype Project = Project(
    accountId: string,
    name: string,
    zoneId: Option<string>,
    route: Option<string>,
    kvNamespaces: Option<seq<KvNamespace>>,
    private: Option<bool>)

  /** The fields the check can report. */
  datatype Field = AccountId | Name | KvBinding | KvId | ZoneId | Route

  /** How a field is named in the error. */
  function FieldName(f: Field): string {
    match f
    case AccountId => "account_id"
    case Name => "name"
    case KvBinding => "kv-namespace binding"
    case KvId => "kv-namespace id"
    case ZoneId => "zone_id"
    case Route => "route"
  }

  /** An optional field that is absent counts the same as an empty one. */
  predicate Blank(o: Option<string>) {
    o.GetOr("") == ""
  }

  /** Position of a field in the order the check reports fields; both
      key-value namespace fields share one position, since they alternate
      entry by entry. */
  function FieldRank(f: Field): nat {
    match f
    case AccountId => 0
    case Name => 1
    case KvBinding => 2
    case KvId => 2
    case ZoneId => 3
    case Route => 4
  }

  predicate SortedByRank(fields: seq<Field>) {
    forall i, j :: 0 <= i < j < |fields| ==> FieldRank(fields[i]) <= FieldRank(fields[j])
  }

  function EmptyBindingCount(kvs: seq<KvNamespace>): nat {
    if |kvs| == 0 then 0
    else (if kvs[0].binding == "" then 1 else 0) + EmptyBindingCount(kvs[1..])
  }

  function EmptyIdCount(kvs: seq<KvNamespace>): nat {
    if |kvs| == 0 then 0
    else (if kvs[0].id == "" then 1 else 0) + EmptyIdCount(kvs[1..])
  }

  /** The namespace part of the report: for each entry in turn, its
      binding and then its id when empty. */
  function KvMissing(kvs: seq<KvNamespace>): (r: seq<Field>)
    ensures forall i :: 0 <= i < |r| ==> r[i] == KvBinding || r[i] == KvId
    ensures |r| <= 2 * |kvs|
  {
    if |kvs| == 0 then []
    else
      (if kvs[0].binding == "" then [KvBinding] else [])
      + (if kvs[0].id == "" then [KvId] else [])
      + KvMissing(kvs[1..])
  }

  /** One entry's report: its binding, then its id, each when empty. */
  lemma KvMissingSingle(kv: KvNamespace)
    ensures KvMissing([kv]) == (if kv.binding == "" then [KvBinding] else []) + (if kv.id == "" then [KvId] else [])
  {
    assert [kv][1..] == [];
  }

  /** The report for consecutive entries is their reports in sequence, so
      the namespace part goes entry by entry, binding before id. */
  lemma {:induction false} KvMissingAppend(a: seq<KvNamespace>, b: seq<KvNamespace>)
    ensures KvMissing(a + b) == KvMissing(a) + KvMissing(b)
    decreases |a|
  {
    if |a| == 0 {
      assert a + b == b;
    } else {
      assert (a + b)[0] == a[0];
      assert (a + b)[1..] == a[1..] + b;
      KvMissingAppend(a[1..], b);
    }
  }

  /** Every empty binding and every empty id is reported once per entry:
      nothing is merged or deduplicated. */
  lemma {:induction false} KvMissingCounts(kvs: seq<KvNamespace>)
    ensures multiset(KvMissing(kvs))[KvBinding] == EmptyBindingCount(kvs)
    ensures multiset(KvMissing(kvs))[KvId] == EmptyIdCount(kvs)
    decreases |kvs|
  {
    if |kvs| > 0 {
      KvMissingCounts(kvs[1..]);
    }
  }

  function NamespaceEntries(p: Project): seq<KvNamespace> {
    p.kvNamespaces.GetOr([])
  }

  /** The fields every publish requires, in report order. */
  function IdentityMissing(p: Project): (r: seq<Field>)
    ensures AccountId in r <==> p.accountId == ""
    ensures Name in r <==> p.name == ""
    ensures ZoneId !in r && Route !in r && KvBinding !in r && KvId !in r
    ensures |r| == (if p.accountId == "" then 1 else 0) + (if p.name == "" then 1 else 0)
    ensures SortedByRank(r) && forall i :: 0 <= i < |r| ==> FieldRank(r[i]) <= 1
  {
    (if p.accountId == "" then [AccountId] else [])
    + (if p.name == "" then [Name] else [])
  }

  /** The fields only a release requires, in report order. */
  function ReleaseMissing(p: Project, release: bool): (r: seq<Field>)
    ensures ZoneId in r <==> release && Blank(p.zoneId)
    ensures Route in r <==> release && Blank(p.route)
    ensures AccountId !in r && Name !in r && KvBinding !in r && KvId !in r
    ensures |r| == (if release && Blank(p.zoneId) then 1 else 0) + (if release && Blank(p.route) then 1 else 0)
    ensures SortedByRank(r) && forall i :: 0 <= i < |r| ==> FieldRank(r[i]) >= 3
  {
    if !release then []
    else
      (if Blank(p.zoneId) then [ZoneId] else [])
      + (if Blank(p.route) then [Route] else [])
  }

  /** The missing-field list `validate_project` builds. */
  function MissingFields(p: Project, release: bool): (m: seq<Field>)
    ensures AccountId in m <==> p.accountId == ""
    ensures Name in m <==> p.name == ""
    ensures ZoneId in m <==> release && Blank(p.zoneId)
    ensures Route in m <==> release && Blank(p.route)
  {
    var front := IdentityMissing(p);
    var kv := KvMissing(NamespaceEntries(p));
    var back := ReleaseMissing(p, release);
    assert AccountId !in kv && Name !in kv && ZoneId !in kv && Route !in kv;
    front + kv + back
  }

  /** Each fixed field is listed exactly once when missing, never twice. */
  lemma MissingFieldsOnce(p: Project, release: bool)
    ensures multiset(MissingFields(p, release))[AccountId] == (if p.accountId == "" then 1 else 0)
    ensures multiset(MissingFields(p, release))[Name] == (if p.name == "" then 1 else 0)
    ensures multiset(MissingFields(p, release))[ZoneId] == (if release && Blank(p.zoneId) then 1 else 0)
    ensures multiset(MissingFields(p, release))[Route] == (if release && Blank(p.route) then 1 else 0)
  {
    AccountIdOnce(p, release);
    NameOnce(p, release);
    ZoneIdOnce(p, release);
    RouteOnce(p, release);
  }

  lemma AccountIdOnce(p: Project, release: bool)
    ensures multiset(MissingFields(p, release))[AccountId] == (if p.accountId == "" then 1 else 0)
  {
    var front := IdentityMissing(p);
    var kv := KvMissing(NamespaceEntries(p));
    var back := ReleaseMissing(p, release);
    IdentityOnce(p);
    CountFront(front, kv, back, AccountId, if p.accountId == "" then 1 else 0);
    assert MissingFields(p, release) == front + kv + back;
  }

  lemma NameOnce(p: Project, release: bool)
    ensures multiset(MissingFields(p, release))[Name] == (if p.name == "" then 1 else 0)
  {
    var front := IdentityMissing(p);
    var kv := KvMissing(NamespaceEntries(p));
    var back := ReleaseMissing(p, release);
    IdentityOnce(p);
    CountFront(front, kv, back, Name, if p.name == "" then 1 else 0);
    assert MissingFields(p, release) == front + kv + back;
  }

  lemma ZoneIdOnce(p: Project, release: bool)
    ensures multiset(MissingFields(p, release))[ZoneId] == (if release && Blank(p.zoneId) then 1 else 0)
  {
    var front := IdentityMissing(p);
    var kv := KvMissing(NamespaceEntries(p));
    var back := ReleaseMissing(p, release);
    ReleaseOnce(p, release);
    CountBack(front, kv, back, ZoneId, if release && Blank(p.zoneId) then 1 else 0);
    assert MissingFields(p, release) == front + kv + back;
  }

  lemma RouteOnce(p: Project, release: bool)
    ensures multiset(MissingFields(p, release))[Route] == (if release && Blank(p.route) then 1 else 0)
  {
    var front := IdentityMissing(p);
    var kv := KvMissing(NamespaceEntries(p));
    var back := ReleaseMissing(p, release);
    ReleaseOnce(p, release);
    CountBack(front, kv, back, Route, if release && Blank(p.route) then 1 else 0);
    assert MissingFields(p, release) == front + kv + back;
  }

  /** A field absent from the later parts of a list is counted in the first. */
  lemma CountFront(a: seq<Field>, b: seq<Field>, c: seq<Field>, f: Field, n: nat)
    requires multiset(a)[f] == n && f !in b && f !in c
    ensures multiset(a + b + c)[f] == n
  {
    assert multiset(a + b + c) == multiset(a) + multiset(b) + multiset(c);
    assert multiset(b)[f] == 0 && multiset(c)[f] == 0;
  }

  /** A field absent from the earlier parts of a list is counted in the last. */
  lemma CountBack(a: seq<Field>, b: seq<Field>, c: seq<Field>, f: Field, n: nat)
    requires multiset(c)[f] == n && f !in a && f !in b
    ensures multiset(a + b + c)[f] == n
  {
    assert multiset(a + b + c) == multiset(a) + multiset(b) + multiset(c);
    assert multiset(a)[f] == 0 && multiset(b)[f] == 0;
  }

  lemma IdentityOnce(p: Project)
    ensures ZoneId !in IdentityMissing(p) && Route !in IdentityMissing(p)
    ensures multiset(IdentityMissing(p))[AccountId] == (if p.accountId == "" then 1 else 0)
    ensures multiset(IdentityMissing(p))[Name] == (if p.name == "" then 1 else 0)
  {
  }

  lemma ReleaseOnce(p: Project, release: bool)
    ensures AccountId !in ReleaseMissing(p, release) && Name !in ReleaseMissing(p, release)
    ensures multiset(ReleaseMissing(p, release))[ZoneId] == (if release && Blank(p.zoneId) then 1 else 0)
    ensures multiset(ReleaseMissing(p, release))[Route] == (if release && Blank(p.route) then 1 else 0)
  {
  }

  /** The list is laid out as the identity fields, then the namespace report
      entry by entry, then the release fields. */
  lemma MissingFieldsLayout(p: Project, release: bool)
    ensures |IdentityMissing(p)| + |ReleaseMissing(p, release)| <= |MissingFields(p, release)|
    ensures MissingFields(p, release)[..|IdentityMissing(p)|] == IdentityMissing(p)
    ensures MissingFields(p, release)[|IdentityMissing(p)|..|MissingFields(p, release)| - |ReleaseMissing(p, release)|]
            == KvMissing(NamespaceEntries(p))
    ensures MissingFields(p, release)[|MissingFields(p, release)| - |ReleaseMissing(p, release)|..] == ReleaseMissing(p, release)
  {
    var front := IdentityMissing(p);
    var kv := KvMissing(NamespaceEntries(p));
    var back := ReleaseMissing(p, release);
    assert MissingFields(p, release) == front + kv + back;
    Segments(front, kv, back);
  }

  lemma Segments(a: seq<Field>, b: seq<Field>, c: seq<Field>)
    ensures (a + b + c)[..|a|] == a
    ensures (a + b + c)[|a|..|a + b + c| - |c|] == b
    ensures (a + b + c)[|a + b + c| - |c|..] == c
  {
  }


  /** Two sorted lists, the first ranked no higher than `k` and the second
      no lower, concatenate to a sorted list. */
  lemma SortedAppend(a: seq<Field>, b: seq<Field>, k: nat)
    requires SortedByRank(a) && SortedByRank(b)
    requires forall i :: 0 <= i < |a| ==> FieldRank(a[i]) <= k
    requires forall j :: 0 <= j < |b| ==> FieldRank(b[j]) >= k
    ensures SortedByRank(a + b)
  {
    var m := a + b;
    forall i, j | 0 <= i < j < |m|
      ensures FieldRank(m[i]) <= FieldRank(m[j])
    {
      if j < |a| {
        assert m[i] == a[i] && m[j] == a[j];
      } else if i < |a| {
        assert m[i] == a[i] && m[j] == b[j - |a|];
      } else {
        assert m[i] == b[i - |a|] && m[j] == b[j - |a|];
      }
    }
  }

  /** Fields are reported account id, name, namespace fields, zone id, route. */
  lemma MissingFieldsOrdered(p: Project, release: bool)
    ensures SortedByRank(MissingFields(p, release))
  {
    var front := IdentityMissing(p);
    var kv := KvMissing(NamespaceEntries(p));
    var back := ReleaseMissing(p, release);
    assert forall i :: 0 <= i < |kv| ==> FieldRank(kv[i]) == 2;
    SortedAppend(front, kv, 2);
    var fk := front + kv;
    assert forall i :: 0 <= i < |fk| ==> FieldRank(fk[i]) <= 2 by {
      forall i | 0 <= i < |fk|
        ensures FieldRank(fk[i]) <= 2
      {
        if i < |front| {
          assert fk[i] == front[i];
        } else {
          assert fk[i] == kv[i - |front|];
        }
      }
    }
    SortedAppend(fk, back, 2);
    assert MissingFields(p, release) == fk + back;
  }

  /** How many of each namespace field the report holds: one per entry
      whose binding, or id, is empty. */
  lemma MissingFieldsCounts(p: Project, release: bool)
    ensures multiset(MissingFields(p, release))[KvBinding] == EmptyBindingCount(NamespaceEntries(p))
    ensures multiset(MissingFields(p, release))[KvId] == EmptyIdCount(NamespaceEntries(p))
  {
    var kvs := NamespaceEntries(p);
    KvMissingCounts(kvs);
    var front := IdentityMissing(p);
    var kv := KvMissing(kvs);
    var back := ReleaseMissing(p, release);
    var m := front + kv + back;
    assert m == MissingFields(p, release);
    assert multiset(m) == multiset(front) + multiset(kv) + multiset(back);
    assert multiset(front)[KvBinding] == 0 && multiset(front)[KvId] == 0 by {
      assert KvBinding !in multiset(front) && KvId !in multiset(front);
    }
    assert multiset(back)[KvBinding] == 0 && multiset(back)[KvId] == 0 by {
      assert KvBinding !in multiset(back) && KvId !in multiset(back);
    }
  }

  /** The failure `validate_project` bails with: the fields, the noun and
      verb that agree with their number, and the publishing destination. */
  datatype ValidationError = ValidationError(missing: seq<Field>, noun: string, verb: string, destination: string)

  /** Singular wording for one field, plural for two or more. */
  function Wording(count: nat): (string, string) {
    if count >= 2 then ("fields", "are")
    else if count == 1 then ("field", "is")
    else ("", "")
  }

  /** Where the worker was to be published. */
  function Destination(release: bool): string {
    if release then "a route" else "your subdomain"
  }

  /** `validate_project`: success exactly when nothing is missing. */
  function ValidateProject(p: Project, release: bool): (r: Result<(), ValidationError>)
    ensures r.Success? <==> |MissingFields(p, release)| == 0
    ensures r.Failure? ==> r.error.missing == MissingFields(p, release)
    ensures r.Failure? ==> (|r.error.missing| == 1 <==> (r.error.noun, r.error.verb) == ("field", "is"))
    ensures r.Failure? ==> (|r.error.missing| >= 2 <==> (r.error.noun, r.error.verb) == ("fields", "are"))
    ensures r.Failure? ==> (r.error.destination == "a route" <==> release)
    ensures r.Failure? ==> (r.error.destination == "your subdomain" <==> !release)
  {
    var missing := MissingFields(p, release);
    var (noun, verb) := Wording(|missing|);
    if |missing| == 0 then Success(())
    else Failure(ValidationError(missing, noun, verb, Destination(release)))
  }

  /** Rust's `{:?}` rendering of a list of field names. None of the names
      holds a character that the rendering would escape. */
  function DebugList(items: seq<Field>): string {
    "[" + DebugItems(items) + "]"
  }

  function DebugItems(items: seq<Field>): string {
    if |items| == 0 then ""
    else if |items| == 1 then "\"" + FieldName(items[0]) + "\""
    else "\"" + FieldName(items[0]) + "\", " + DebugItems(items[1..])
  }

  /** The text of the error: it quotes the missing fields as a list and
      ends with the destination. */
  function Message(e: ValidationError): (m: string)
    ensures Contains(m, DebugList(e.missing))
    ensures Contains(m, e.noun + " " + DebugList(e.missing) + " which " + e.verb)
    ensures |m| >= |e.destination + "!"| && m[|m| - |e.destination + "!"|..] == e.destination + "!"
  {
    var m := "Your wrangler.toml is missing the " + (e.noun + " ") + DebugList(e.missing) + " which " + e.verb
      + " required to publish to " + (e.destination + "!");
    MessageParts("Your wrangler.toml is missing the ", e.noun + " ", DebugList(e.missing), " which ", e.verb,
                 " required to publish to ", e.destination + "!");
    m
  }

  /** Where the pieces of a message sit in it: the list, the stretch from
      the noun to the verb, and the ending. */
  lemma MessageParts(a: string, n: string, l: string, w: string, v: string, t: string, z: string)
    ensures Contains(a + n + l + w + v + t + z, l)
    ensures Contains(a + n + l + w + v + t + z, n + l + w + v)
    ensures |a + n + l + w + v + t + z| >= |z| && (a + n + l + w + v + t + z)[|a + n + l + w + v + t + z| - |z|..] == z
  {
    var m := a + n + l + w + v + t + z;
    assert m == (a + n) + l + (w + v + t + z);
    ContainsInfix(a + n, l, w + v + t + z);
    assert m == a + (n + l + w + v) + (t + z);
    ContainsInfix(a, n + l + w + v, t + z);
    assert m[|m| - |z|..] == z;
  }



  /** A manifest with an empty account id but a name, published to the
      subdomain, is rejected for its account id alone, in the singular. */
  lemma OnlyAccountIdMissing(name: string)
    requires name != ""
    ensures ValidateProject(Project("", name, None, None, None, None), false)
            == Failure(ValidationError([AccountId], "field", "is", "your subdomain"))
  {
    var p := Project("", name, None, None, None, None);
    assert MissingFields(p, false) == [AccountId] by {
      assert IdentityMissing(p) == [AccountId];
      assert KvMissing(NamespaceEntries(p)) == [];
      assert ReleaseMissing(p, false) == [];
    }
  }

  /** The error text names each missing field in quotes, e.g.
      `["account_id"]` for a lone account id. */
  lemma SingleFieldRendering(f: Field)
    ensures DebugList([f]) == "[\"" + FieldName(f) + "\"]"
  {
  }

  /** A release with empty account id, name, zone id and route reports all
      four, in order, in the plural. */
  lemma FourFieldsMissing(zoneId: Option<string>, route: Option<string>)
    requires Blank(zoneId) && Blank(route)
    ensures ValidateProject(Project("", "", zoneId, route, None, None), true)
            == Failure(ValidationError([AccountId, Name, ZoneId, Route], "fields", "are", "a route"))
  {
    var p := Project("", "", zoneId, route, None, None);
    assert MissingFields(p, true) == [AccountId, Name, ZoneId, Route];
  }
}

=== FILE: wranglerjs.dfy ===
/** The argument parser and asset selection of the JavaScript bundler shim
    (wranglerjs/index.js). The shim's command line is reduced into an object
    of `key → value`; the webpack configuration is either generated from two
    of those values or read from the project; after the build, the first
    `.wasm` asset and every `.js` asset are picked out by name. The object is
    a map in which a key can be set to `undefined`, written `None`. */
module WranglerJs {
  import opened Wrappers
  import opened Strings

  /** The argument object: a key the reduce assigned maps to its value, or
      to `None` when it was assigned `undefined`. */
  type Args = map<string, Option<string>>

  const MalformedMessage := "malformed arguments"

  /** An argument is accepted when it holds `--` or `=` somewhere. */
  predicate WellFormed(e: string) {
    Contains(e, "--") || '=' in e
  }

  /** The key an argument sets: the text before its first `=`, with the first
      `--` in it removed (wherever it is; later ones stay). */
  function KeyOf(e: string): string {
    ReplaceFirst(Split(e, '=')[0], "--", "")
  }

  /** The value an argument sets: the text between its first and second `=`,
      or `undefined` when it has no `=`. */
  function ValueOf(e: string): (v: Option<string>)
    ensures v.None? <==> '=' !in e
    ensures v.Some? ==> '=' !in v.value
  {
    var pieces := Split(e, '=');
    if |pieces| >= 2 then
      assert e == pieces[0] + ['='] + Join(pieces[1..], '=');
      assert e[|pieces[0]|] == '=';
      Some(pieces[1])
    else None
  }

  /** Reading `args[key]`: a key never assigned reads as `undefined` too. */
  function Get(args: Args, key: string): Option<string> {
    if key in args then args[key] else None
  }

  /** The `reduce` over the command line: arguments are folded in from left
      to right, and the first malformed one throws. */
  function ParseArgs(argv: seq<string>): (r: Result<Args, string>)
    ensures r.Failure? <==> exists i :: 0 <= i < |argv| && !WellFormed(argv[i])
    ensures r.Failure? ==> r.error == MalformedMessage
    decreases |argv|
  {
    if |argv| == 0 then Success(map[])
    else
      var init := argv[..|argv| - 1];
      var e := argv[|argv| - 1];
      assert forall i :: 0 <= i < |init| ==> init[i] == argv[i];
      match ParseArgs(init)
      case Failure(err) => Failure(err)
      case Success(obj) =>
        if !WellFormed(e) then Failure(MalformedMessage)
        else Success(obj[KeyOf(e) := ValueOf(e)])
  }

  /** The keys the arguments set, in a set. */
  function KeysSet(argv: seq<string>): (ks: set<string>)
    ensures forall i :: 0 <= i < |argv| ==> KeyOf(argv[i]) in ks
    ensures forall k :: k in ks ==> exists i :: 0 <= i < |argv| && KeyOf(argv[i]) == k
    decreases |argv|
  {
    if |argv| == 0 then {}
    else
      var init := argv[..|argv| - 1];
      assert forall i :: 0 <= i < |init| ==> init[i] == argv[i];
      KeysSet(init) + {KeyOf(argv[|argv| - 1])}
  }

  /** The keys of the parsed object are exactly the keys the arguments
      set. */
  lemma {:induction false} ParsedKeys(argv: seq<string>)
    requires ParseArgs(argv).Success?
    ensures ParseArgs(argv).value.Keys == KeysSet(argv)
    decreases |argv|
  {
    if |argv| > 0 {
      ParsedKeys(argv[..|argv| - 1]);
    }
  }

  /** When a key is set several times, the last argument that sets it
      decides its value. */
  lemma {:induction false} LastOccurrenceWins(argv: seq<string>, i: nat)
    requires ParseArgs(argv).Success?
    requires i < |argv|
    requires forall j :: i < j < |argv| ==> KeyOf(argv[j]) != KeyOf(argv[i])
    ensures KeyOf(argv[i]) in ParseArgs(argv).value
    ensures ParseArgs(argv).value[KeyOf(argv[i])] == ValueOf(argv[i])
    decreases |argv|
  {
    var init := argv[..|argv| - 1];
    if i < |argv| - 1 {
      assert forall j :: 0 <= j < |init| ==> init[j] == argv[j];
      LastOccurrenceWins(init, i);
    }
  }

  /** An argument with neither `--` nor `=` makes the whole parse throw,
      whatever comes before or after it. */
  lemma MalformedAnywhere(before: seq<string>, e: string, after: seq<string>)
    requires !WellFormed(e)
    ensures ParseArgs(before + [e] + after) == Failure(MalformedMessage)
  {
    var argv := before + [e] + after;
    assert argv[|before|] == e;
  }

  /** A `--name` flag with no `=` is accepted and sets `name` to
      `undefined`. */
  lemma FlagWithoutValue(name: string)
    requires '=' !in name
    ensures WellFormed("--" + name)
    ensures KeyOf("--" + name) == name
    ensures ValueOf("--" + name) == None
  {
    var e := "--" + name;
    assert e[..2] == "--";
    ContainsAt(e, "--", 0);
    assert '=' !in e;
    assert Split(e, '=') == [e];
    ReplaceFirstPrefix("--", name);
  }

  /** `key=value` sets the key before the `=`, stripped of its first `--`,
      to the text after it. */
  lemma KeyValue(key: string, value: string)
    requires '=' !in key && '=' !in value
    ensures WellFormed(key + "=" + value)
    ensures KeyOf(key + "=" + value) == ReplaceFirst(key, "--", "")
    ensures ValueOf(key + "=" + value) == Some(value)
  {
    var e := key + "=" + value;
    assert e == key + ['='] + value;
    assert e[|key|] == '=';
    SplitCons(key, value, '=');
    assert Split(value, '=') == [value];
  }

  /** Everything after a second `=` is dropped: `k=a=b` sets `k` to `a`. */
  lemma SecondEqualsTruncates(key: string, value: string, rest: string)
    requires '=' !in key && '=' !in value
    ensures KeyOf(key + "=" + value + "=" + rest) == ReplaceFirst(key, "--", "")
    ensures ValueOf(key + "=" + value + "=" + rest) == Some(value)
  {
    var e := key + "=" + value + "=" + rest;
    assert e == key + ['='] + (value + ['='] + rest);
    SplitCons(key, value + ['='] + rest, '=');
    SplitCons(value, rest, '=');
  }

  /** Only the first `--` of the key is removed: `----name` sets `--name`. */
  lemma OnlyFirstDashesRemoved(name: string)
    requires '=' !in name
    ensures KeyOf("----" + name) == "--" + name
  {
    var e := "----" + name;
    assert '=' !in e;
    assert Split(e, '=') == [e];
    assert e == "--" + ("--" + name);
    ReplaceFirstPrefix("--", "--" + name);
  }

  const NoWebpackConfigKey := "no-webpack-config"
  const UseEntryKey := "use-entry"

  /** The webpack configuration the shim compiles with: one generated from
      the entry alone, or the project's `webpack.config.js` (read from disk,
      so passed in as `C`). */
  datatype WebpackConfig<C> = Generated(entry: Option<string>) | FromFile(file: C)

  /** The configuration is generated exactly when `no-webpack-config` is
      the string `1`; its entry is `use-entry`, possibly `undefined`. */
  function SelectConfig<C>(args: Args, file: C): (r: WebpackConfig<C>)
    ensures r.Generated? <==> Get(args, NoWebpackConfigKey) == Some("1")
    ensures r.Generated? ==> r.entry == Get(args, UseEntryKey)
    ensures r.FromFile? ==> r.file == file
  {
    if Get(args, NoWebpackConfigKey) == Some("1") then Generated(Get(args, UseEntryKey))
    else FromFile(file)
  }

  /** `--no-webpack-config=1 --use-entry=<entry>` compiles `<entry>` with a
      generated configuration. */
  lemma EntryFromCommandLine<C>(entry: string, file: C)
    requires '=' !in entry
    ensures ParseArgs(["--" + NoWebpackConfigKey + "=" + "1", "--" + UseEntryKey + "=" + entry]).Success?
    ensures SelectConfig(ParseArgs(["--" + NoWebpackConfigKey + "=" + "1", "--" + UseEntryKey + "=" + entry]).value, file)
            == Generated(Some(entry))
  {
    var a := "--" + NoWebpackConfigKey + "=" + "1";
    var b := "--" + UseEntryKey + "=" + entry;
    KeyValue("--" + NoWebpackConfigKey, "1");
    KeyValue("--" + UseEntryKey, entry);
    ReplaceFirstPrefix("--", NoWebpackConfigKey);
    ReplaceFirstPrefix("--", UseEntryKey);
    var argv := [a, b];
    assert argv[..1] == [a] && [a][..0] == [];
    assert ParseArgs([a]) == Success(map[NoWebpackConfigKey := Some("1")]);
    var args := ParseArgs(argv).value;
    assert args == map[NoWebpackConfigKey := Some("1")][UseEntryKey := Some(entry)];
    assert Get(args, NoWebpackConfigKey) == Some("1");
    assert Get(args, UseEntryKey) == Some(entry);
  }

  /** A bare `--no-webpack-config` sets the key to `undefined`, which is not
      `1`, so the project's own configuration is still used. */
  lemma BareFlagKeepsProjectConfig<C>(file: C)
    ensures ParseArgs(["--" + NoWebpackConfigKey]).Success?
    ensures SelectConfig(ParseArgs(["--" + NoWebpackConfigKey]).value, file) == FromFile(file)
  {
    FlagWithoutValue(NoWebpackConfigKey);
    var argv := ["--" + NoWebpackConfigKey];
    assert argv[..0] == [];
  }

  /** `filterByExtension(ext)`: a name passes when `.ext` occurs anywhere in
      it, not only at its end. */
  predicate FilterByExtension(ext: string, v: string) {
    Contains(v, "." + ext)
  }

  /** A name passes exactly when `.ext` occurs at some position. */
  lemma FilterByExtensionIff(ext: string, v: string)
    ensures FilterByExtension(ext, v) <==> exists j: nat :: IsAt(v, "." + ext, j)
  {
    ContainsIff(v, "." + ext);
  }

  /** The filter is a substring test: `a.json` passes the `js` filter, and
      so does a source map `a.js.map`. */
  lemma JsFilterMatchesInside(stem: string, after: string)
    ensures FilterByExtension("js", stem + ".js" + after)
  {
    assert "." + "js" == ".js";
    ContainsInfix(stem, ".js", after);
  }

  /** `a.json` passes the `js` filter. */
  lemma JsonPassesJsFilter(stem: string)
    ensures FilterByExtension("js", stem + ".json")
  {
    assert stem + ".json" == stem + ".js" + "on";
    JsFilterMatchesInside(stem, "on");
  }

  /** `Array.prototype.find` with the filter: the first name that passes. */
  function FindByExtension(keys: seq<string>, ext: string): (r: Option<string>)
    ensures r.None? <==> forall i :: 0 <= i < |keys| ==> !FilterByExtension(ext, keys[i])
    ensures r.Some? ==> exists i :: 0 <= i < |keys| && keys[i] == r.value && FilterByExtension(ext, keys[i]) &&
                                    forall j :: 0 <= j < i ==> !FilterByExtension(ext, keys[j])
    decreases |keys|
  {
    if |keys| == 0 then None
    else if FilterByExtension(ext, keys[0]) then Some(keys[0])
    else
      var r := FindByExtension(keys[1..], ext);
      assert forall i :: 1 <= i < |keys| ==> keys[i] == keys[1..][i - 1];
      if r.Some? then
        var i :| 0 <= i < |keys[1..]| && keys[1..][i] == r.value && FilterByExtension(ext, keys[1..][i]) &&
                 forall j :: 0 <= j < i ==> !FilterByExtension(ext, keys[1..][j]);
        assert keys[i + 1] == r.value;
        r
      else r
  }

  /** `Array.prototype.filter` with the filter: the names that pass, in key
      order. */
  function FilterKeys(keys: seq<string>, ext: string): (r: seq<string>)
    ensures forall x :: x in r <==> x in keys && FilterByExtension(ext, x)
    ensures |r| <= |keys|
    decreases |keys|
  {
    if |keys| == 0 then []
    else
      var rest := FilterKeys(keys[1..], ext);
      assert forall x :: x in keys <==> x == keys[0] || x in keys[1..];
      if FilterByExtension(ext, keys[0]) then [keys[0]] + rest else rest
  }

  /** Filtering the keys in two parts and concatenating gives the filter of
      the whole: the order of the kept names follows the key order. */
  lemma {:induction false} FilterKeysAppend(a: seq<string>, b: seq<string>, ext: string)
    ensures FilterKeys(a + b, ext) == FilterKeys(a, ext) + FilterKeys(b, ext)
    decreases |a|
  {
    if |a| > 0 {
      assert (a + b)[1..] == a[1..] + b;
      FilterKeysAppend(a[1..], b, ext);
    } else {
      assert a + b == b;
    }
  }

  /** Filtering is idempotent: every kept name passes again. */
  lemma {:induction false} FilterKeysIdempotent(keys: seq<string>, ext: string)
    ensures FilterKeys(FilterKeys(keys, ext), ext) == FilterKeys(keys, ext)
    decreases |keys|
  {
    if |keys| > 0 {
      FilterKeysIdempotent(keys[1..], ext);
      var rest := FilterKeys(keys[1..], ext);
      if FilterByExtension(ext, keys[0]) {
        assert ([keys[0]] + rest)[1..] == rest;
      }
    }
  }

  /** The first wasm asset is the first of the names the `wasm` filter
      keeps. */
  lemma {:induction false} FindIsFirstOfFilter(keys: seq<string>, ext: string)
    ensures FindByExtension(keys, ext).None? <==> |FilterKeys(keys, ext)| == 0
    ensures FindByExtension(keys, ext).Some? ==> FindByExtension(keys, ext).value == FilterKeys(keys, ext)[0]
    decreases |keys|
  {
    if |keys| > 0 && !FilterByExtension(ext, keys[0]) {
      FindIsFirstOfFilter(keys[1..], ext);
    }
  }

  /** What the build output is searched for. */
  datatype AssetSelection = AssetSelection(wasmModule: Option<string>, jsAssets: seq<string>, hasWasmModule: bool)

  /** The selection made over the names of the compiled assets, in key
      order: the wasm module is the first `.wasm` key, and the JavaScript
      assets are the `.js` keys in the order the keys come. */
  function SelectAssets(keys: seq<string>): (s: AssetSelection)
    ensures s.wasmModule == FindByExtension(keys, "wasm")
    ensures s.jsAssets == FilterKeys(keys, "js")
    ensures s.hasWasmModule <==> exists i :: 0 <= i < |keys| && FilterByExtension("wasm", keys[i])
    ensures s.hasWasmModule <==> s.wasmModule.Some?
    ensures forall x :: x in s.jsAssets <==> x in keys && FilterByExtension("js", x)
  {
    var wasm := FindByExtension(keys, "wasm");
    AssetSelection(wasm, FilterKeys(keys, "js"), wasm.Some?)
  }
}

=== FILE: wrappers.dfy ===
/** The two optional shapes the model needs: `Option` for a value that may
    be absent (a configuration key that is not set, JavaScript's
    `undefined`), and `Result` for a step that either yields a value or
    reports why it failed. */
module Wrappers {

  datatype Option<+T> = None | Some(value: T) {

    /** The wrapped value, or `default` when there is none (Rust's
        `unwrap_or`). */
    function GetOr(default: T): T {
      match this
      case Some(v) => v
      case None => default
    }
  }

  datatype Result<+R, +E> = Success(value: R) | Failure(error: E)
}
